=== FILE: README.md ===
# Cryptogram game core, modelled in Dafny

This project models the game logic of CryptogramGame, a console substitution-cipher puzzle. The game encodes a phrase under a one-to-one map from letters to symbols. The player rebuilds that map one guess at a time.

The model is purely functional. Each operation of the game is a Dafny function or method over immutable values. The modules follow the program's classes:

- `Common`, `Text`, `Decimal`: shared vocabulary and the .NET library operations the game relies on. `Text` covers `string.Concat`, `Join`, `Split`, `Split(c, 2)` and `Trim`, the last with the `char.IsWhiteSpace` set. `Decimal` covers `int.ToString()` for the cipher numbers.
- `Cryptograms` (`Models/Cryptogram.cs`): the cryptogram record and `BuildDerivedData`, which computes the decryption map, the used symbols and the encoded display. Letter displays concatenate the symbols. Number displays join the symbols of a word with `-` and the words with two spaces.
- `CryptogramService`: generation of letter and number ciphers. The random shuffles are parameters. The letters variant repairs the shuffle into a derangement in a loop over 26 positions.
- `GameStates` (`Models/GameState.cs`): the game in progress, meaning the cryptogram and the player's symbol→letter guesses, with the derived predicates `IsFullyMapped`, `IsCorrect`, `UsedPlainLetters` and `UnmappedValues`.
- `PlayerService`: the current player and the played / completed / guesses / correct-guesses counters. The player store's answers are parameters.
- `GameService`: a session holds the optional current game and the optional current player. Every service operation is a function from (session, inputs) to (session', outcome), where the outcome has one constructor per result the C# code returns. Two kinds of choice become parameters: the order in which a .NET `Dictionary` enumerates its entries, used by the `FirstOrDefault` scans, and the random unmapped symbol a hint draws.
- `GameStateRepository`: the pure part of the save file format. It covers the four `Key=value` lines that saving writes, the line loop of loading (split on the first `=`, trim both halves, last line wins), the validation that decides `Success` / `NotFound` / `Corrupted`, and the two map parsers. A file is given as its list of lines, or `None` when there is no file.
- `ScoreboardService`: the top ten over the list the player store returns. It filters, orders by completion proportion and then by completions (both descending), and takes ten. Proportions are compared exactly as fractions, by cross-multiplication.

The central invariants proved:

- the player's mapping stays injective under `EnterLetter`, `UndoLetter` and `GetHint`;
- a hint adds exactly one right guess, and increases the number of guesses only when it evicts nobody;
- the derangement repair leaves no letter in its own place unless the shuffle was the identity;
- a saved game loads back as itself;
- the scoreboard is ranked, is drawn from the eligible players, and leaves out nobody who ranks above its last entry.

## Model

| member | source | states |
|---|---|---|
| Cryptograms.Invert | CryptogramGame/Models/Cryptogram.cs:52 | the decryption map has exactly the symbols as keys and sends each symbol back to its letter, in both directions |
| Cryptograms.UsedSymbols | CryptogramGame/Models/Cryptogram.cs:55-69 | the used symbols are exactly the symbols of the phrase's non-space characters that the map covers; nothing stale survives |
| Cryptograms.PartsOfChar | CryptogramGame/Models/Cryptogram.cs:60-68 | one phrase character gives the space marker if it is a space, its symbol if it is mapped, and nothing otherwise |
| Cryptograms.PartsAppend | CryptogramGame/Models/Cryptogram.cs:58-69 | the pieces of a phrase are the pieces of its halves in order, so together with `PartsOfChar` the pieces are fixed character by character |
| Cryptograms.PartsCovered | CryptogramGame/Models/Cryptogram.cs:58-69 | when every non-space character is mapped, piece i is the space marker or the symbol of character i |
| Cryptograms.Words | CryptogramGame/Models/Cryptogram.cs:77-99 | number words are never empty and never contain the space marker, whatever the spacing; flattened, they are the symbols in phrase order |
| Cryptograms.WordsWithoutSpace | CryptogramGame/Models/Cryptogram.cs:90-99 | pieces without a space marker all join the current word, which the end closes when it is not empty |
| Cryptograms.WordsAtSpace | CryptogramGame/Models/Cryptogram.cs:80-94 | a space marker closes the current word when it is not empty, and the words after it start afresh |
| Cryptograms.WordsOfPhrase | CryptogramGame/Models/Cryptogram.cs:58-99 | for a phrase of single-spaced words, each showing some symbol, the number display's words are exactly the pieces of the phrase's words |
| Cryptograms.HyphenJoined | CryptogramGame/Models/Cryptogram.cs:86-98 | one display word per word, its symbols joined by "-" |
| Cryptograms.BuildDerivedData | CryptogramGame/Models/Cryptogram.cs:49-103 | the build fails exactly when two letters share a symbol; on success it keeps the phrase, kind and map, inverts the map, gets the used symbols right (each a key of the decryption map), and displays the pieces concatenated for letters, or as hyphen-joined words separated by two spaces for numbers |
| Cryptograms.NumbersDisplay | CryptogramGame/Models/Cryptogram.cs:75-101 | a built number cryptogram of single-spaced words displays word i as that word's symbols joined by "-", and the words joined by two spaces |
| Cryptograms.LettersDisplay | CryptogramGame/Models/Cryptogram.cs:58-74 | with one-character symbols covering the phrase, the concatenated pieces have the phrase's length, a space at each space and each other character's symbol in its place |
| Cryptograms.LettersEncoded | CryptogramGame/Models/Cryptogram.cs:71-74 | a built letter cryptogram with one-character symbols covering its phrase displays each character in place |
| Cryptograms.BuildIdempotent | CryptogramGame/Models/Cryptogram.cs:49-103 | building a built cryptogram again changes nothing |
| Cryptograms.DecryptionInjective | CryptogramGame/Models/Cryptogram.cs:52 | the decryption map of a built cryptogram is itself one-to-one |
| Cryptograms.DecodeParts | CryptogramGame/Models/Cryptogram.cs:58-73 | decoding the concatenated symbols one character at a time through the inverse map restores the phrase, for single-character symbols covering every non-space character |
| Cryptograms.LettersRoundTrip | CryptogramGame/Models/Cryptogram.cs:52-74 | for a built letter cryptogram under those conditions, decoding the encoded phrase through its decryption map gives the phrase |
| Cryptograms.LettersExample | CryptogramGame/Models/Cryptogram.cs:58-74 | "cat" under {c:Q, a:Z, t:X} encodes as "QZX" with used symbols {Q, Z, X} |
| Cryptograms.NumbersExample | CryptogramGame/Models/Cryptogram.cs:77-101 | "a cat" under {a:5, c:12, t:9} encodes as "5  12-5-9", with two spaces between words |
| Decimal.NatToStringInjective | CryptogramGame/Services/CryptogramService.cs:122 | distinct numbers print as distinct decimal strings, so distinct cipher numbers give distinct symbols |
| CryptogramService.Shuffle | CryptogramGame/Services/CryptogramService.cs:65-68 | a permutation of the positions gives a shuffled alphabet of 26 distinct a-z letters, fixed exactly where the permutation is |
| CryptogramService.FindSwapPartner | CryptogramGame/Services/CryptogramService.cs:76-81 | the inner search stops within 26 steps, at the first unfixed position after `i` going round, or back at `i` exactly when every other position is fixed |
| CryptogramService.SwapShuffled | CryptogramGame/Services/CryptogramService.cs:83 | exchanging two positions keeps 26 distinct a-z letters |
| CryptogramService.SwapRepairs | CryptogramGame/Services/CryptogramService.cs:73-84 | swapping a fixed position with an unfixed one unfixes both and keeps every earlier position unfixed |
| CryptogramService.RepairDerangement | CryptogramGame/Services/CryptogramService.cs:71-85 | the result is a permutation of the input alphabet; if some position was moved, no position is fixed afterwards; an identity shuffle comes back unchanged |
| CryptogramService.GenerateLetterMapping | CryptogramGame/Services/CryptogramService.cs:58-99 | the keys are the phrase's distinct a-z letters; each value is one upper-case letter; no two letters share a value; for a non-identity shuffle no letter maps to its own upper case |
| CryptogramService.GenerateNumberMapping | CryptogramGame/Services/CryptogramService.cs:104-127 | same keys; each value is the decimal form of a number in 1..26; no two letters share a value |
| CryptogramService.GenerateCryptogram | CryptogramGame/Services/CryptogramService.cs:25-52 | no phrase gives no cryptogram and the error message; otherwise a built cryptogram of the phrase and kind with an injective map over its letters and the success message |
| GameStates.UsedPlainLetters | CryptogramGame/Models/GameState.cs:72-78 | a letter is used exactly when some symbol's guess is that letter |
| GameStates.UnmappedValues | CryptogramGame/Models/GameState.cs:84-92 | the unmapped symbols are the used symbols minus the guessed ones |
| GameStates.CheckCorrect | CryptogramGame/Models/GameState.cs:42-66 | the early-exit walk answers true exactly when every used symbol has a guess equal to its decryption |
| GameStates.CorrectImpliesFullyMapped | CryptogramGame/Models/GameState.cs:29-66 | a correct game is fully mapped |
| GameStates.UnmappedEmptyIffFullyMapped | CryptogramGame/Models/GameState.cs:29-92 | nothing is unmapped exactly when the game is fully mapped |
| GameStates.UnmappedOfFreshGame | CryptogramGame/Models/GameState.cs:84-92 | with no guesses every used symbol is unmapped |
| PlayerService.NewPlayer | CryptogramGame/Models/Player.cs:47-50 | a new player has the given name and all four counters at zero |
| PlayerService.LoadPlayer | CryptogramGame/Services/PlayerService.cs:27-53 | success exactly when the name is not blank and the store returned a player or no file exists; a blank name and a corrupt file each fail and keep the current player; a missing player becomes a new zeroed player; a found one becomes current |
| PlayerService.CreatePlayer | CryptogramGame/Services/PlayerService.cs:59-66 | the new zeroed player is returned and becomes current |
| PlayerService.SaveCurrentPlayer | CryptogramGame/Services/PlayerService.cs:72-87 | saved exactly when there is a player and the write succeeded; no player gives the no-player outcome |
| PlayerService.IncrementPlayed | CryptogramGame/Services/PlayerService.cs:93-99 | adds one to played and changes nothing else; no player stays no player |
| PlayerService.IncrementCompleted | CryptogramGame/Services/PlayerService.cs:105-111 | adds one to completed and changes nothing else; no player stays no player |
| PlayerService.RecordGuess | CryptogramGame/Services/PlayerService.cs:117-130 | adds one guess, and one correct guess exactly when the guess was right; nothing else changes |
| PlayerService.StatsKeepAccuracyBounded | CryptogramGame/Services/PlayerService.cs:93-130 | correct guesses never exceed guesses after any of the three counter updates |
| GameService.StartNewGame | CryptogramGame/Services/GameService.cs:28-37 | the new game has the cryptogram and no guesses, and played rises by one |
| GameService.LoadGame | CryptogramGame/Services/GameService.cs:43-46 | the loaded game becomes current and the statistics do not change |
| GameService.EndGame | CryptogramGame/Services/GameService.cs:52-55 | no game remains and the statistics do not change |
| GameService.ValidateCryptogramValue | CryptogramGame/Services/GameService.cs:65-78 | valid exactly when a game is in progress and the symbol is used; no game gives its own failure |
| GameService.IsValueAlreadyMapped | CryptogramGame/Services/GameService.cs:84-92 | false with no game; for a symbol of the current game, true exactly when it is not among the unmapped values; when true, the symbol's guess is one of the used plain letters |
| GameService.IsPlainLetterAlreadyUsed | CryptogramGame/Services/GameService.cs:98-106 | true exactly when a game is in progress and some symbol's guess is the letter |
| GameService.FirstHolder | CryptogramGame/Services/GameService.cs:140-141 | the scan returns the first key in enumeration order that is guessed as the letter and not skipped, or none when no key qualifies |
| GameService.FirstHolderFinds | CryptogramGame/Services/GameService.cs:137-152 | over a full enumeration the scan finds a holder exactly when one exists, and the only holder when the mapping is injective |
| GameService.EnterLetter | CryptogramGame/Services/GameService.cs:114-215 | no game and an unused symbol fail; every failure leaves the session unchanged; a duplicate names the first other holder of the letter in dictionary enumeration order; confirmation is asked only unconfirmed and carries the current guess; a `Mapped` outcome reports whether the letter equals the symbol's true decryption; success sets that one guess, records exactly one guess with the right correctness, and counts a completion exactly when the game is now fully and correctly mapped |
| GameService.EnterLetterQueries | CryptogramGame/Services/GameService.cs:114-166 | the refusals follow the service's queries: no game and not-used exactly as validation says; for an injective mapping, a duplicate exactly when the letter is used and not on this symbol, a confirmation request exactly when the symbol is already mapped and unconfirmed, and success otherwise |
| GameService.EnterLetterDuplicate | CryptogramGame/Services/GameService.cs:137-152 | with injective guesses, a letter held by another symbol is refused as a duplicate naming that symbol, and a letter on its own symbol is never a duplicate |
| GameService.EnterLetterConfirmation | CryptogramGame/Services/GameService.cs:154-166 | a mapped symbol whose letter is free or its own asks for confirmation with the current guess, and succeeds once confirmed |
| GameService.EnterLetterKeepsInjective | CryptogramGame/Services/GameService.cs:137-169 | injective guesses stay injective |
| GameService.UndoLetter | CryptogramGame/Services/GameService.cs:225-247 | removal happens exactly for a used, guessed symbol in a game; it removes exactly that key, reports the old guess, and keeps every other guess; otherwise nothing changes |
| GameService.UndoLetterQueries | CryptogramGame/Services/GameService.cs:225-247 | no game and not-used exactly as validation says; removal exactly for a valid symbol that is already mapped, not-mapped otherwise |
| GameService.UndoLetterKeepsInjective | CryptogramGame/Services/GameService.cs:244 | injective guesses stay injective |
| GameService.GetHint | CryptogramGame/Services/GameService.cs:325-368 | all-mapped exactly when the game is fully mapped; otherwise the drawn unmapped symbol gets its true letter, the other holder of that letter (if any) loses its guess, every other guess stays, and the statistics are untouched |
| GameService.InstallCorrect | CryptogramGame/Services/GameService.cs:344-365 | installing an unguessed symbol's true letter adds exactly that symbol to the right guesses |
| GameService.InstallSize | CryptogramGame/Services/GameService.cs:352-365 | the update adds one guess, or none when a holder was evicted |
| GameService.HintProgress | CryptogramGame/Services/GameService.cs:325-368 | a hint raises the right-guess count by exactly one, and raises the guess count by one only when nothing was evicted |
| GameService.GetHintKeepsInjective | CryptogramGame/Services/GameService.cs:347-365 | injective guesses stay injective |
| GameService.ShowSolution | CryptogramGame/Services/GameService.cs:257-265 | no game gives an empty map and phrase; otherwise the phrase, and for a built cryptogram a map whose keys are exactly the symbols and which sends each letter's symbol back to the letter |
| GameService.ShowSolutionSolves | CryptogramGame/Services/GameService.cs:257-265 | the revealed map, taken as the guesses, solves the built game |
| GameService.GetDisplayString | CryptogramGame/Services/GameService.cs:374-413 | empty with no game; never longer than the phrase; when every non-space character is mapped, position i shows a space, the guess for the character's symbol, or "_" when it has none |
| GameService.DisplayAppend | CryptogramGame/Services/GameService.cs:389-412 | the display of a text is the displays of its halves in order |
| GameService.DisplayDropsUnmapped | CryptogramGame/Services/GameService.cs:397-400 | a character that is neither a space nor mapped shows nothing |
| GameService.DisplayCovered | CryptogramGame/Services/GameService.cs:389-412 | with every non-space character mapped, the display has the text's length and shows a space, the guess or "_" at each position |
| GameService.DisplayReveals | CryptogramGame/Services/GameService.cs:389-412 | when every non-space character's symbol is guessed as that character, the display is the text itself |
| GameService.SolvedDisplayShowsPhrase | CryptogramGame/Services/GameService.cs:379-413 | a correctly solved built game displays its phrase |
| Text.SplitFirst | CryptogramGame/Persistence/GameStateRepository.cs:97 | `Split('=', 2)`: no result exactly when there is no separator; otherwise the text before the first separator and everything after it |
| Text.TrimIdentity | CryptogramGame/Persistence/GameStateRepository.cs:101 | trimming changes nothing exactly when the text is empty or neither end is white space |
| Text.SplitJoin | CryptogramGame/Persistence/GameStateRepository.cs:59 | splitting joined pieces on the separator gives them back when no piece holds it |
| Text.JoinSplit | CryptogramGame/Persistence/GameStateRepository.cs:188 | joining the split pieces with the separator gives the text back |
| GameStateRepository.SaveLines | CryptogramGame/Persistence/GameStateRepository.cs:47-65 | saving writes four lines |
| GameStateRepository.ParseEncryptionEntry | CryptogramGame/Persistence/GameStateRepository.cs:190-197 | an entry is accepted exactly when its part before the first `=` has `Length` 1, that is one character of the Basic Multilingual Plane (a character above U+FFFF is two UTF-16 units and is refused); then it is that letter, `=`, and the symbol |
| GameStateRepository.ParseGuessEntry | CryptogramGame/Persistence/GameStateRepository.cs:219-226 | an entry is accepted exactly when its part after the first `=` has `Length` 1, that is one character of the Basic Multilingual Plane (a character above U+FFFF is refused); then it is the symbol (without `=`), `=`, and the letter |
| GameStateRepository.EncryptionEntryRoundTrip | CryptogramGame/Persistence/GameStateRepository.cs:188-198 | a written encryption entry reads back as its letter and symbol when the letter is not `=` and is one UTF-16 unit, as every .NET `char` is |
| GameStateRepository.GuessEntryRoundTrip | CryptogramGame/Persistence/GameStateRepository.cs:217-227 | a written guess entry reads back as its symbol and letter when the symbol has no `=` and the letter is one UTF-16 unit, as every .NET `char` is |
| GameStateRepository.ParseEntries | CryptogramGame/Persistence/GameStateRepository.cs:188-200 | the parse fails exactly when some entry fails; otherwise the keys are exactly the entries' keys |
| GameStateRepository.ParseEntriesLastWins | CryptogramGame/Persistence/GameStateRepository.cs:188-199 | a key's value is that of its last entry |
| GameStateRepository.ParseRendered | CryptogramGame/Persistence/GameStateRepository.cs:56-59 | parsing the written entries of a map gives back the part of the map they list |
| GameStateRepository.EncryptionMappingFails | CryptogramGame/Persistence/GameStateRepository.cs:182-206 | the encryption map is rejected exactly when some comma-separated entry lacks a single UTF-16 unit before its first `=`: no `=`, an empty or longer key, or a key above U+FFFF |
| GameStateRepository.PlayerMappingFails | CryptogramGame/Persistence/GameStateRepository.cs:211-235 | the player mapping is rejected exactly when some entry lacks exactly one UTF-16 unit after its first `=`: no `=`, an empty or longer value, or a letter above U+FFFF |
| GameStateRepository.AstralKeyRejected | CryptogramGame/Persistence/GameStateRepository.cs:190-194 | an encryption entry whose key lies above U+FFFF, a surrogate pair of `Length` 2, makes the whole map fail to parse |
| GameStateRepository.AstralLetterRejected | CryptogramGame/Persistence/GameStateRepository.cs:219-223 | a guess entry whose letter lies above U+FFFF, a surrogate pair of `Length` 2, makes the whole mapping fail to parse |
| GameStateRepository.EmptyEncryptionMapRejected | CryptogramGame/Persistence/GameStateRepository.cs:188-195 | the empty text, which is what an empty encryption map saves as, is rejected |
| GameStateRepository.FieldsHas | CryptogramGame/Persistence/GameStateRepository.cs:95-103 | a field is present exactly when some parsed line sets it |
| GameStateRepository.ParseDataHas | CryptogramGame/Persistence/GameStateRepository.cs:95-103 | a field is present exactly when some line of the file, split on its first `=` and trimmed, names it |
| GameStateRepository.ParseDataLastWins | CryptogramGame/Persistence/GameStateRepository.cs:95-103 | a field's value is that of the last line naming it |
| GameStateRepository.ParseDataSnoc | CryptogramGame/Persistence/GameStateRepository.cs:95-103 | a line appended at the end overrides the earlier value of its key |
| GameStateRepository.ParseFieldLine | CryptogramGame/Persistence/GameStateRepository.cs:97-101 | a `Key=value` line with a clean key reads back as the key and the trimmed value |
| GameStateRepository.ParseSavedFields | CryptogramGame/Persistence/GameStateRepository.cs:95-103 | the four saved lines read back as the four fields with trimmed values |
| GameStateRepository.LoadGameState | CryptogramGame/Persistence/GameStateRepository.cs:82-162 | not found exactly when there is no file; loaded exactly when Phrase, Type and EncryptionMap are present, the type parses, the map parses and is injective, and a non-empty PlayerMapping parses; a loaded game is built from those fields, with an empty mapping when PlayerMapping is missing or empty |
| GameStateRepository.MapTextClean | CryptogramGame/Persistence/GameStateRepository.cs:56-59 | the text of a non-empty map with clean entries is not empty and survives trimming |
| GameStateRepository.MapTextParses | CryptogramGame/Persistence/GameStateRepository.cs:56-59 | a non-empty map written as comma-separated entries parses back to itself when no entry holds a comma |
| GameStateRepository.EncryptionTextRoundTrip | CryptogramGame/Persistence/GameStateRepository.cs:56-59 | a saveable non-empty encryption map's text survives trimming and parses back to the map |
| GameStateRepository.GuessTextRoundTrip | CryptogramGame/Persistence/GameStateRepository.cs:62-65 | a saveable mapping's text survives trimming, is empty exactly when the mapping is, and otherwise parses back to it |
| GameStateRepository.SavedData | CryptogramGame/Persistence/GameStateRepository.cs:47-65 | the saved lines define exactly the four fields with the phrase, the kind's name and the two map texts |
| GameStateRepository.BuiltUnique | CryptogramGame/Persistence/GameStateRepository.cs:126-133 | two built cryptograms with the same phrase, kind and map are equal |
| GameStateRepository.SaveLoadRoundTrip | CryptogramGame/Persistence/GameStateRepository.cs:42-162 | saving a built game and loading the lines gives the same game, for a non-empty saveable encryption map, saveable guesses and a phrase without surrounding white space |
| ScoreboardService.EntryOf | CryptogramGame/Services/ScoreboardService.cs:48-53 | an entry copies the player's name, completions and plays |
| ScoreboardService.Proportion | CryptogramGame/Models/Player.cs:34-45 | the completion proportion as a fraction with a positive denominator: 0 with nothing played, otherwise equal to completed/played |
| ScoreboardService.CrossTransitive | CryptogramGame/Services/ScoreboardService.cs:45 | the proportion comparison is transitive, strictly when either step is strict |
| ScoreboardService.RanksAtLeastTransitive | CryptogramGame/Services/ScoreboardService.cs:44-46 | the combined ordering is transitive |
| ScoreboardService.RanksTotal | CryptogramGame/Services/ScoreboardService.cs:44-46 | of two players, one may always be ranked before the other |
| ScoreboardService.Insert | CryptogramGame/Services/ScoreboardService.cs:44-46 | insertion adds exactly the one item |
| ScoreboardService.SortByRank | CryptogramGame/Services/ScoreboardService.cs:44-46 | the ordering is a permutation of its input |
| ScoreboardService.InsertRanked | CryptogramGame/Services/ScoreboardService.cs:44-46 | inserting into a ranked list keeps it ranked |
| ScoreboardService.SortRanked | CryptogramGame/Services/ScoreboardService.cs:44-46 | the ordering is ranked: larger proportion first, and more completions first among equal proportions |
| ScoreboardService.SortCommutes | CryptogramGame/Services/ScoreboardService.cs:44-53 | ordering players and then making entries gives the entries in the same order |
| ScoreboardService.Eligible | CryptogramGame/Services/ScoreboardService.cs:35-37 | each player with at least one completion is kept as often as given, and every other player is dropped |
| ScoreboardService.Ranking | CryptogramGame/Services/ScoreboardService.cs:35-46 | the ranking is a ranked permutation of the eligible players |
| ScoreboardService.GetTopTen | CryptogramGame/Services/ScoreboardService.cs:26-57 | no players, or no eligible players, give no list and their messages; otherwise between one and ten entries, as many as the eligible players up to ten, and the heading |
| ScoreboardService.TopTenFromEligible | CryptogramGame/Services/ScoreboardService.cs:35-53 | every entry has completions and copies some input player |
| ScoreboardService.TopTenSubMultiset | CryptogramGame/Services/ScoreboardService.cs:35-53 | no entry appears more often than among the eligible players' entries |
| ScoreboardService.TopTenRanked | CryptogramGame/Services/ScoreboardService.cs:44-46 | the entries are ranked |
| ScoreboardService.TopTenOmitted | CryptogramGame/Services/ScoreboardService.cs:44-47 | an eligible player left off ranks no higher than the last entry, and with ten or fewer eligible players nobody is left off |

## Left out

- File and directory I/O in the repositories is not modelled: `File.*`, `Directory.*`, the save path, `SaveExists`, `DeleteSave`, and `SaveGameState`'s `false` on a write error. A save file is given as its list of lines, so `File.ReadAllLines` splitting a value at an embedded line break is not modelled.
- `PlayerRepository`, `PhraseRepository`, `ConsoleUI` and `Program` are not part of this model. What the player store and the phrase source return are parameters.
- Randomness is not modelled: `System.Random`. The alphabet and number shuffles are permutation parameters, and the hint's drawn symbol is the parameter `pick`.
- .NET `Dictionary` enumeration order is unspecified. The `FirstOrDefault` scans and the entry order of saved maps take it as an `order` parameter that lists every key once.
- `Enum.TryParse<CryptogramType>` is the parameter `parseKind`. The model only assumes that it reads back the two member names. Nothing is claimed about other strings, which the real call may also accept, such as numeric ones.
- Floating point is not modelled: `GetFrequencies` with its English frequency table, `Player.AccuracyPercentage`, and the `double` completion proportion. The scoreboard compares the same ratios exactly instead.
- `ScoreboardService.SortByRank`: the contract states a ranked permutation but not stability, meaning the input order of players tied on both keys.
- `PlayerService.IncrementPlayed`: the counters are unbounded integers, so 32-bit `int` wrap-around at 2^31 - 1 is not modelled. The same applies to `PlayerService.IncrementCompleted` and `PlayerService.RecordGuess`.
- `PlayerService.LoadPlayer`: a `null` name is not modelled because strings cannot be null here. Blank names (empty or all white space) are.
- `CryptogramService.GenerateLetterMapping`: assumes a culture whose upper case of a-z is A-Z. The source calls the culture-sensitive `string.ToUpper()`, and under Turkish or Azerbaijani culture 'i' becomes 'İ', which the model's upper-case contract does not cover.
- Result messages are not modelled as text. Every service outcome is a tagged value carrying the data its message interpolates: `Validation`, `EnterOutcome`, `UndoOutcome`, `HintOutcome`, `LoadPlayerOutcome` and `SaveOutcome`. The exceptions are `GenerateCryptogram` and `GetTopTen`, whose fixed texts are modelled literally.
- `CryptogramService.GenerateLetterMapping`: letters outside a-z that `char.IsLetter` admits are not considered. They get no symbol in the source either, because only a-z positions are filled.
- `GameService.GetHint`: requires that the used symbols of the game's cryptogram are keys of its decryption map, which holds for every built cryptogram. With an unbuilt one the source would throw `KeyNotFoundException`, and that path is not modelled.
- `GameStateRepository.SaveLoadRoundTrip`: stated only for saveable games. A saveable game meets all of these:
  - its encryption map is not empty;
  - no white space surrounds the phrase;
  - no letter of the encryption map is `,`, `=` or white space;
  - every letter, encrypted or guessed, is one UTF-16 unit, as every .NET `char` is;
  - no symbol holds `,` or white space, and no guessed symbol holds `=`;
  - no guessed letter is `,` or white space. A game whose phrase has no letters saves an empty EncryptionMap, and that value loads as Corrupted (`GameStateRepository.EmptyEncryptionMapRejected`).
- Strings are sequences of Unicode scalar values, where .NET strings are sequences of UTF-16 code units. The one place where the count matters is the `Length` 1 test of the two map parsers, and there `Common.IsBmp` counts a character above U+FFFF as two units, so such an entry is refused as in .NET. Elsewhere a character above U+FFFF is never an a-z letter or a map key, so it is skipped or kept whole in both.
- The doc comment on `EncodedPhrase` shows number words separated by one space, while the code uses two. The model follows the code.

=== FILE: Common.dfy ===
/** Small shared vocabulary: optional values, results, map injectivity and
    the character classes the game relies on. */
module Common {

  /** An optional value, in place of a C# null. */
  datatype Option<+T> = None | Some(value: T)

  /** Either a value or an error, in place of a thrown exception. */
  datatype Result<+T, +E> = Success(value: T) | Failure(error: E)

  /** No two keys of `m` share a value. */
  predicate Injective<K, V(==)>(m: map<K, V>)
  {
    forall k, k' :: k in m && k' in m && k != k' ==> m[k] != m[k']
  }

  /** `order` lists every key of `keys` exactly once and nothing else: the
      order in which a .NET Dictionary happens to enumerate its entries. */
  predicate Enumerates<K>(order: seq<K>, keys: set<K>)
  {
    && (forall i :: 0 <= i < |order| ==> order[i] in keys)
    && (forall k :: k in keys ==> k in order)
    && (forall i, j :: 0 <= i < j < |order| ==> order[i] != order[j])
  }

  /** The plain alphabet of the game: a-z. */
  predicate IsLower(c: char)
  {
    'a' <= c <= 'z'
  }

  predicate IsUpper(c: char)
  {
    'A' <= c <= 'Z'
  }

  /** The i-th letter of the plain alphabet. */
  function Letter(i: int): (c: char)
    requires 0 <= i < 26
    ensures IsLower(c)
  {
    ('a' as int + i) as char
  }

  /** The alphabet position of a lower-case letter. */
  function Index(c: char): (i: int)
    requires IsLower(c)
    ensures 0 <= i < 26 && Letter(i) == c
  {
    c as int - 'a' as int
  }

  /** The upper case of an a-z letter, as `string.ToUpper` gives it in a
      culture whose upper case of a-z is A-Z. */
  function Upper(c: char): (u: char)
    requires IsLower(c)
    ensures IsUpper(u)
  {
    (c as int - 32) as char
  }

  /** A character of the Basic Multilingual Plane: one UTF-16 code unit, so
      a .NET string of `Length` 1. A character above U+FFFF is a surrogate
      pair there, a string of `Length` 2. */
  predicate IsBmp(c: char)
  {
    c as int < 0x10000
  }

  /** `char.IsWhiteSpace`: the Unicode White_Space code points .NET recognises. */
  predicate IsWhiteSpace(c: char)
  {
    var n := c as int;
    || n == 0x20 || 0x09 <= n <= 0x0D || n == 0x85 || n == 0xA0 || n == 0x1680
    || 0x2000 <= n <= 0x200A || n == 0x2028 || n == 0x2029 || n == 0x202F
    || n == 0x205F || n == 0x3000
  }

  /** `string.IsNullOrWhiteSpace` for a non-null string. */
  predicate IsBlank(s: string)
  {
    forall i :: 0 <= i < |s| ==> IsWhiteSpace(s[i])
  }

  lemma LetterInjective(i: int, j: int)
    requires 0 <= i < 26 && 0 <= j < 26
    ensures Letter(i) == Letter(j) <==> i == j
  {
  }

  lemma UpperInjective(c: char, d: char)
    requires IsLower(c) && IsLower(d)
    ensures Upper(c) == Upper(d) <==> c == d
  {
  }
}

=== FILE: Cryptogram.dfy ===
/** The puzzle entity: a phrase, its cipher kind and encryption map, and the
    data derived from them by `BuildDerivedData` (the decryption map, the set
    of symbols the phrase uses, and the encoded display string). */
module Cryptograms {
  import opened Common
  import opened Text

  datatype CipherKind = Letters | Numbers

  /** `encryption` maps plain letters to symbols; the last three fields are
      derived and are only meaningful once `BuildDerivedData` has run. */
  datatype Cryptogram = Cryptogram(
    phrase: string,
    kind: CipherKind,
    encryption: map<char, string>,
    decryption: map<string, char>,
    encoded: string,
    used: set<string>)

  /** A cryptogram that has only its own fields, as the object initialiser
      creates it before `BuildDerivedData`. */
  function Fresh(phrase: string, kind: CipherKind, encryption: map<char, string>): Cryptogram
  {
    Cryptogram(phrase, kind, encryption, map[], "", {})
  }

  /** Inverting the map fails, as `ToDictionary` throws, when two letters
      share a symbol. */
  datatype BuildError = DuplicateSymbol

  /** The inverse of an injective map. */
  function Invert(enc: map<char, string>): (dec: map<string, char>)
    requires Injective(enc)
    ensures dec.Keys == enc.Values
    ensures forall c :: c in enc ==> enc[c] in dec && dec[enc[c]] == c
    ensures forall v :: v in dec ==> dec[v] in enc && enc[dec[v]] == v
  {
    map c | c in enc :: enc[c] := c
  }

  /** The pieces of the display, in phrase order: " " for a space and the
      symbol of a mapped character; a character without a symbol is dropped. */
  function Parts(phrase: string, enc: map<char, string>): (parts: seq<string>)
    ensures |parts| <= |phrase|
  {
    if |phrase| == 0 then []
    else if phrase[0] == ' ' then [" "] + Parts(phrase[1..], enc)
    else if phrase[0] in enc then [enc[phrase[0]]] + Parts(phrase[1..], enc)
    else Parts(phrase[1..], enc)
  }

  /** The symbols collected while walking the phrase. */
  function UsedSymbols(phrase: string, enc: map<char, string>): (used: set<string>)
    ensures used == set c | c in phrase && c != ' ' && c in enc :: enc[c]
  {
    if |phrase| == 0 then {}
    else
      var rest := UsedSymbols(phrase[1..], enc);
      assert forall c :: c in phrase <==> c == phrase[0] || c in phrase[1..];
      if phrase[0] == ' ' then rest
      else if phrase[0] in enc then {enc[phrase[0]]} + rest
      else rest
  }

  /** The pieces other than the space marker. */
  function NonSpaces(parts: seq<string>): (r: seq<string>)
    ensures " " !in r
  {
    if |parts| == 0 then []
    else if parts[0] == " " then NonSpaces(parts[1..])
    else [parts[0]] + NonSpaces(parts[1..])
  }

  function Flatten(words: seq<seq<string>>): seq<string>
  {
    if |words| == 0 then [] else words[0] + Flatten(words[1..])
  }

  /** The words of a number display: `current` is the word being collected;
      a space closes it when it is non-empty, and so does the end. */
  function Words(parts: seq<string>, current: seq<string>): (words: seq<seq<string>>)
    requires " " !in current
    ensures forall i :: 0 <= i < |words| ==> |words[i]| > 0 && " " !in words[i]
    ensures Flatten(words) == current + NonSpaces(parts)
  {
    if |parts| == 0 then
      if |current| > 0 then [current] else []
    else if parts[0] == " " then
      var rest := Words(parts[1..], []);
      if |current| > 0 then [current] + rest else rest
    else
      var rest := Words(parts[1..], current + [parts[0]]);
      assert current + [parts[0]] + NonSpaces(parts[1..]) == current + NonSpaces(parts);
      rest
  }

  /** Each word's symbols joined by "-". */
  function HyphenJoined(words: seq<seq<string>>): (r: seq<string>)
    ensures |r| == |words|
    ensures forall i :: 0 <= i < |words| ==> r[i] == Join("-", words[i])
  {
    if |words| == 0 then [] else [Join("-", words[0])] + HyphenJoined(words[1..])
  }

  /** The display string for a kind, from the pieces. */
  function Encode(kind: CipherKind, parts: seq<string>): string
  {
    match kind
    case Letters => Concat(parts)
    case Numbers => Join("  ", HyphenJoined(Words(parts, [])))
  }

  /** `Cryptogram.BuildDerivedData`: recomputes the three derived fields
      from the phrase, the kind and the encryption map. */
  function BuildDerivedData(c: Cryptogram): (r: Result<Cryptogram, BuildError>)
    ensures r.Failure? <==> !Injective(c.encryption)
    ensures r.Success? ==>
      && r.value.phrase == c.phrase && r.value.kind == c.kind
      && r.value.encryption == c.encryption
      && r.value.decryption.Keys == c.encryption.Values
      && (forall ch :: ch in c.encryption ==> r.value.decryption[c.encryption[ch]] == ch)
      && r.value.used == (set ch | ch in c.phrase && ch != ' ' && ch in c.encryption :: c.encryption[ch])
      && r.value.used <= r.value.decryption.Keys
      && (c.kind == Letters ==> r.value.encoded == Concat(Parts(c.phrase, c.encryption)))
      && (c.kind == Numbers ==>
            r.value.encoded == Join("  ", HyphenJoined(Words(Parts(c.phrase, c.encryption), []))))
  {
    if !Injective(c.encryption) then Failure(DuplicateSymbol)
    else
      Success(c.(
        decryption := Invert(c.encryption),
        used := UsedSymbols(c.phrase, c.encryption),
        encoded := Encode(c.kind, Parts(c.phrase, c.encryption))))
  }

  /** The derived data of `c` is up to date. */
  predicate Built(c: Cryptogram)
  {
    BuildDerivedData(c) == Success(c)
  }

  /** Rebuilding an already built cryptogram changes nothing. */
  lemma BuildIdempotent(c: Cryptogram)
    requires BuildDerivedData(c).Success?
    ensures BuildDerivedData(BuildDerivedData(c).value) == BuildDerivedData(c)
  {
  }

  /** The decryption map of a built cryptogram is injective: a symbol names
      one letter and each letter has one symbol. */
  lemma DecryptionInjective(c: Cryptogram)
    requires Built(c)
    ensures Injective(c.decryption)
  {
  }

  /** Reads a letter display back through the decryption map, one character
      per symbol; spaces pass through. */
  function DecodeLetters(text: string, dec: map<string, char>): string
  {
    if |text| == 0 then ""
    else
      var head := if text[0] == ' ' then " " else if [text[0]] in dec then [dec[[text[0]]]] else "";
      head + DecodeLetters(text[1..], dec)
  }

  /** Every symbol is one character other than a space. */
  predicate SingleCharSymbols(enc: map<char, string>)
  {
    forall ch :: ch in enc ==> |enc[ch]| == 1 && enc[ch][0] != ' '
  }

  lemma {:induction false} DecodeParts(phrase: string, enc: map<char, string>)
    requires Injective(enc) && SingleCharSymbols(enc)
    requires forall i :: 0 <= i < |phrase| && phrase[i] != ' ' ==> phrase[i] in enc
    ensures DecodeLetters(Concat(Parts(phrase, enc)), Invert(enc)) == phrase
  {
    if |phrase| > 0 {
      var dec := Invert(enc);
      DecodeParts(phrase[1..], enc);
      var rest := Concat(Parts(phrase[1..], enc));
      var head := if phrase[0] == ' ' then " " else enc[phrase[0]];
      assert Concat(Parts(phrase, enc)) == head + rest;
      assert (head + rest)[0] == head[0] && (head + rest)[1..] == rest;
      if phrase[0] != ' ' {
        assert [head[0]] == head;
      }
      assert phrase == [phrase[0]] + phrase[1..];
    }
  }

  /** Letters round trip: when every non-space character of the phrase has a
      single-character symbol, decoding the display gives the phrase back. */
  lemma LettersRoundTrip(c: Cryptogram)
    requires c.kind == Letters && Built(c)
    requires SingleCharSymbols(c.encryption)
    requires forall i :: 0 <= i < |c.phrase| && c.phrase[i] != ' ' ==> c.phrase[i] in c.encryption
    ensures DecodeLetters(c.encoded, c.decryption) == c.phrase
  {
    DecodeParts(c.phrase, c.encryption);
  }

  /** Number displays never contain an empty word, however the spaces of
      the phrase are placed, and they keep every symbol in order. */
  lemma NumberWords(parts: seq<string>)
    ensures forall i :: 0 <= i < |Words(parts, [])| ==> |Words(parts, [])[i]| > 0
    ensures Flatten(Words(parts, [])) == NonSpaces(parts)
  {
  }

  /** Every non-space character of `phrase` has a symbol. */
  predicate Covers(phrase: string, enc: map<char, string>)
  {
    forall i :: 0 <= i < |phrase| && phrase[i] != ' ' ==> phrase[i] in enc
  }

  /** One character of the phrase: a space gives the space marker, a mapped
      character its symbol, and any other character nothing. */
  lemma PartsOfChar(ch: char, enc: map<char, string>)
    ensures Parts([ch], enc) == if ch == ' ' then [" "] else if ch in enc then [enc[ch]] else []
  {
    assert [ch][1..] == [];
  }

  /** The pieces of a phrase are the pieces of its halves, in order. */
  lemma {:induction false} PartsAppend(p1: string, p2: string, enc: map<char, string>)
    ensures Parts(p1 + p2, enc) == Parts(p1, enc) + Parts(p2, enc)
  {
    if |p1| > 0 {
      PartsAppend(p1[1..], p2, enc);
      assert (p1 + p2)[1..] == p1[1..] + p2;
    } else {
      assert p1 + p2 == p2;
    }
  }

  /** When every non-space character has a symbol, the pieces line up with
      the phrase: a space marker for each space and the symbol of each
      other character. */
  lemma {:induction false} PartsCovered(phrase: string, enc: map<char, string>)
    requires Covers(phrase, enc)
    ensures |Parts(phrase, enc)| == |phrase|
    ensures forall i :: 0 <= i < |phrase| ==>
      Parts(phrase, enc)[i] == if phrase[i] == ' ' then " " else enc[phrase[i]]
  {
    if |phrase| > 0 {
      assert Covers(phrase[1..], enc) by {
        forall i | 0 <= i < |phrase[1..]| && phrase[1..][i] != ' ' ensures phrase[1..][i] in enc {
          assert phrase[1..][i] == phrase[i + 1];
        }
      }
      PartsCovered(phrase[1..], enc);
      forall i | 1 <= i < |phrase|
        ensures Parts(phrase, enc)[i] == if phrase[i] == ' ' then " " else enc[phrase[i]]
      {
        assert Parts(phrase, enc)[i] == Parts(phrase[1..], enc)[i - 1];
        assert phrase[1..][i - 1] == phrase[i];
      }
    }
  }

  /** No symbol is the space marker, so the number display cannot mistake a
      symbol for a word break. */
  predicate NoSpaceSymbol(enc: map<char, string>)
  {
    forall ch :: ch in enc ==> enc[ch] != " "
  }

  /** A word without spaces has no space marker among its pieces. */
  lemma {:induction false} PartsOfWord(w: string, enc: map<char, string>)
    requires ' ' !in w && NoSpaceSymbol(enc)
    ensures " " !in Parts(w, enc)
  {
    if |w| > 0 {
      assert ' ' !in w[1..] by {
        forall i | 0 <= i < |w[1..]| ensures w[1..][i] != ' ' {
          assert w[1..][i] == w[i + 1];
        }
      }
      PartsOfWord(w[1..], enc);
    }
  }

  /** Without a space marker the pieces all join the current word. */
  lemma {:induction false} WordsWithoutSpace(a: seq<string>, cur: seq<string>)
    requires " " !in a && " " !in cur
    ensures Words(a, cur) == if |cur + a| > 0 then [cur + a] else []
  {
    if |a| > 0 {
      assert " " !in a[1..] by {
        forall i | 0 <= i < |a[1..]| ensures a[1..][i] != " " {
          assert a[1..][i] == a[i + 1];
        }
      }
      WordsWithoutSpace(a[1..], cur + [a[0]]);
      assert cur + [a[0]] + a[1..] == cur + a;
    } else {
      assert cur + a == cur;
    }
  }

  /** A space marker closes the word collected so far (when it is not
      empty), and a new word starts after it. */
  lemma {:induction false} WordsAtSpace(a: seq<string>, b: seq<string>, cur: seq<string>)
    requires " " !in a && " " !in cur
    ensures Words(a + [" "] + b, cur) == (if |cur + a| > 0 then [cur + a] else []) + Words(b, [])
  {
    if |a| == 0 {
      assert a + [" "] + b == [" "] + b;
      assert ([" "] + b)[1..] == b;
      assert cur + a == cur;
    } else {
      assert " " !in a[1..] by {
        forall i | 0 <= i < |a[1..]| ensures a[1..][i] != " " {
          assert a[1..][i] == a[i + 1];
        }
      }
      WordsAtSpace(a[1..], b, cur + [a[0]]);
      assert (a + [" "] + b)[1..] == a[1..] + [" "] + b;
      assert cur + [a[0]] + a[1..] == cur + a;
    }
  }

  /** The pieces of each word. */
  function WordParts(ws: seq<string>, enc: map<char, string>): (r: seq<seq<string>>)
    ensures |r| == |ws| && forall i :: 0 <= i < |ws| ==> r[i] == Parts(ws[i], enc)
  {
    if |ws| == 0 then [] else [Parts(ws[0], enc)] + WordParts(ws[1..], enc)
  }

  /** Every word is free of spaces and shows at least one symbol. */
  predicate ShownWords(ws: seq<string>, enc: map<char, string>)
  {
    forall i :: 0 <= i < |ws| ==> ' ' !in ws[i] && |Parts(ws[i], enc)| > 0
  }

  /** For a phrase of single-spaced words, the number display's words are
      exactly the phrase's words. */
  lemma {:induction false} WordsOfPhrase(ws: seq<string>, enc: map<char, string>)
    requires NoSpaceSymbol(enc) && ShownWords(ws, enc)
    ensures Words(Parts(Join(" ", ws), enc), []) == WordParts(ws, enc)
  {
    if |ws| == 1 {
      PartsOfWord(ws[0], enc);
      WordsWithoutSpace(Parts(ws[0], enc), []);
      assert [] + Parts(ws[0], enc) == Parts(ws[0], enc);
    } else if |ws| > 1 {
      var rest := Join(" ", ws[1..]);
      assert Join(" ", ws) == ws[0] + (" " + rest);
      PartsAppend(ws[0], " " + rest, enc);
      PartsAppend(" ", rest, enc);
      PartsOfChar(' ', enc);
      assert Parts(Join(" ", ws), enc) == Parts(ws[0], enc) + [" "] + Parts(rest, enc);
      PartsOfWord(ws[0], enc);
      WordsAtSpace(Parts(ws[0], enc), Parts(rest, enc), []);
      assert [] + Parts(ws[0], enc) == Parts(ws[0], enc);
      assert ShownWords(ws[1..], enc) by {
        forall i | 0 <= i < |ws[1..]| ensures ' ' !in ws[1..][i] && |Parts(ws[1..][i], enc)| > 0 {
          assert ws[1..][i] == ws[i + 1];
        }
      }
      WordsOfPhrase(ws[1..], enc);
      assert WordParts(ws, enc) == [Parts(ws[0], enc)] + WordParts(ws[1..], enc);
    }
  }

  /** Number display: a phrase of single-spaced words shows each word as its
      symbols joined by "-", and the words separated by two spaces. */
  lemma NumbersDisplay(c: Cryptogram, ws: seq<string>)
    requires Built(c) && c.kind == Numbers && c.phrase == Join(" ", ws)
    requires NoSpaceSymbol(c.encryption) && ShownWords(ws, c.encryption)
    ensures |HyphenJoined(WordParts(ws, c.encryption))| == |ws|
    ensures forall i :: 0 <= i < |ws| ==>
      HyphenJoined(WordParts(ws, c.encryption))[i] == Join("-", Parts(ws[i], c.encryption))
    ensures c.encoded == Join("  ", HyphenJoined(WordParts(ws, c.encryption)))
  {
    WordsOfPhrase(ws, c.encryption);
  }

  /** Letter display, character by character: each space stays and each
      other character shows its one-character symbol. */
  lemma {:induction false} LettersDisplay(phrase: string, enc: map<char, string>)
    requires Covers(phrase, enc) && SingleCharSymbols(enc)
    ensures |Concat(Parts(phrase, enc))| == |phrase|
    ensures forall i :: 0 <= i < |phrase| ==>
      Concat(Parts(phrase, enc))[i] == if phrase[i] == ' ' then ' ' else enc[phrase[i]][0]
  {
    if |phrase| > 0 {
      assert Covers(phrase[1..], enc) by {
        forall i | 0 <= i < |phrase[1..]| && phrase[1..][i] != ' ' ensures phrase[1..][i] in enc {
          assert phrase[1..][i] == phrase[i + 1];
        }
      }
      LettersDisplay(phrase[1..], enc);
      var head := if phrase[0] == ' ' then " " else enc[phrase[0]];
      var rest := Concat(Parts(phrase[1..], enc));
      assert Parts(phrase, enc) == [head] + Parts(phrase[1..], enc);
      assert Concat(Parts(phrase, enc)) == head + rest;
      forall i | 1 <= i < |phrase|
        ensures Concat(Parts(phrase, enc))[i] == if phrase[i] == ' ' then ' ' else enc[phrase[i]][0]
      {
        assert (head + rest)[i] == rest[i - 1];
        assert phrase[1..][i - 1] == phrase[i];
      }
    }
  }

  /** A built letter cryptogram displays each character of a covered phrase
      in place: spaces stay and every other character shows its symbol. */
  lemma LettersEncoded(c: Cryptogram)
    requires Built(c) && c.kind == Letters
    requires Covers(c.phrase, c.encryption) && SingleCharSymbols(c.encryption)
    ensures |c.encoded| == |c.phrase|
    ensures forall i :: 0 <= i < |c.phrase| ==>
      c.encoded[i] == if c.phrase[i] == ' ' then ' ' else c.encryption[c.phrase[i]][0]
  {
    LettersDisplay(c.phrase, c.encryption);
  }

  lemma LettersExampleParts()
    ensures Parts("cat", map['c' := "Q", 'a' := "Z", 't' := "X"]) == ["Q", "Z", "X"]
  {
    var enc := map['c' := "Q", 'a' := "Z", 't' := "X"];
    assert "cat"[1..] == "at" && "at"[1..] == "t" && "t"[1..] == "";
    assert Parts("t", enc) == ["X"];
    assert Parts("at", enc) == ["Z", "X"];
  }

  lemma LettersExampleUsed()
    ensures UsedSymbols("cat", map['c' := "Q", 'a' := "Z", 't' := "X"]) == {"Q", "Z", "X"}
  {
    var enc := map['c' := "Q", 'a' := "Z", 't' := "X"];
    assert "cat"[1..] == "at" && "at"[1..] == "t" && "t"[1..] == "";
    assert UsedSymbols("t", enc) == {"X"};
    assert UsedSymbols("at", enc) == {"Z", "X"};
  }

  /** Letters example: "cat" under {c:Q, a:Z, t:X} displays as "QZX". */
  lemma LettersExample()
    ensures var r := BuildDerivedData(Fresh("cat", Letters, map['c' := "Q", 'a' := "Z", 't' := "X"]));
      r.Success? && r.value.encoded == "QZX" && r.value.used == {"Q", "Z", "X"}
  {
    LettersExampleParts();
    LettersExampleUsed();
    assert Concat(["Q", "Z", "X"]) == "QZX" by {
      assert ["Q", "Z", "X"][1..] == ["Z", "X"] && ["Z", "X"][1..] == ["X"];
    }
  }

  lemma NumbersExampleParts()
    ensures Parts("a cat", map['a' := "5", 'c' := "12", 't' := "9"]) == ["5", " ", "12", "5", "9"]
  {
    var enc := map['a' := "5", 'c' := "12", 't' := "9"];
    assert "a cat"[1..] == " cat" && " cat"[1..] == "cat";
    assert "cat"[1..] == "at" && "at"[1..] == "t" && "t"[1..] == "";
    assert Parts("t", enc) == ["9"];
    assert Parts("at", enc) == ["5", "9"];
    assert Parts("cat", enc) == ["12", "5", "9"];
    assert Parts(" cat", enc) == [" ", "12", "5", "9"];
  }

  lemma NumbersExampleLastWord()
    ensures Words(["12", "5", "9"], []) == [["12", "5", "9"]]
  {
    var w: seq<string> := ["12", "5", "9"];
    assert Words(["9"], ["12", "5"]) == [w] by {
      assert ["9"][1..] == [];
      assert ["12", "5"] + ["9"] == w;
    }
    assert Words(["5", "9"], ["12"]) == Words(["9"], ["12", "5"]) by {
      assert ["5", "9"][1..] == ["9"] && ["12"] + ["5"] == ["12", "5"];
    }
    assert Words(w, []) == Words(["5", "9"], ["12"]) by {
      assert w[1..] == ["5", "9"] && [] + ["12"] == ["12"];
    }
  }

  lemma NumbersExampleWords()
    ensures Words(["5", " ", "12", "5", "9"], []) == [["5"], ["12", "5", "9"]]
  {
    var parts: seq<string> := ["5", " ", "12", "5", "9"];
    var w: seq<string> := ["12", "5", "9"];
    NumbersExampleLastWord();
    assert Words(parts[1..], ["5"]) == [["5"]] + Words(w, []) by {
      assert parts[1..] == [" ", "12", "5", "9"] && parts[1..][1..] == w;
    }
    assert Words(parts, []) == Words(parts[1..], ["5"]) by {
      assert [] + ["5"] == ["5"];
    }
  }

  lemma NumbersExampleHyphens()
    ensures HyphenJoined([["5"], ["12", "5", "9"]]) == ["5", "12-5-9"]
  {
    assert ["5", "9"][1..] == ["9"];
    assert Join("-", ["5", "9"]) == "5-9";
    assert ["12", "5", "9"][1..] == ["5", "9"];
    assert Join("-", ["12", "5", "9"]) == "12-5-9";
    var words := [["5"], ["12", "5", "9"]];
    assert words[1..] == [["12", "5", "9"]] && words[1..][1..] == [];
  }

  lemma NumbersExampleEncode()
    ensures Encode(Numbers, ["5", " ", "12", "5", "9"]) == "5  12-5-9"
  {
    var words := Words(["5", " ", "12", "5", "9"], []);
    assert HyphenJoined(words) == ["5", "12-5-9"] by {
      NumbersExampleWords();
      NumbersExampleHyphens();
    }
    assert Join("  ", ["5", "12-5-9"]) == "5  12-5-9" by {
      assert ["5", "12-5-9"][1..] == ["12-5-9"];
    }
  }

  /** Numbers example: "a cat" under {a:5, c:12, t:9} displays as "5  12-5-9",
      two spaces between words and "-" between the symbols of a word. */
  lemma NumbersExample()
    ensures var r := BuildDerivedData(Fresh("a cat", Numbers, map['a' := "5", 'c' := "12", 't' := "9"]));
      r.Success? && r.value.encoded == "5  12-5-9"
  {
    var enc := map['a' := "5", 'c' := "12", 't' := "9"];
    assert Injective(enc);
    NumbersExampleParts();
    NumbersExampleEncode();
  }
}

=== FILE: CryptogramService.dfy ===
/** Cipher generation: a letter cipher from a shuffled alphabet repaired into
    a derangement, or a number cipher from a shuffled 1..26, restricted to the
    letters of the phrase. The random shuffles are parameters. */
module CryptogramService {
  import opened Common
  import opened Decimal
  import opened Cryptograms

  /** `s` is an ordering of the 26 integers lo, ..., lo + 25. */
  predicate IsPermutationFrom(s: seq<int>, lo: int)
  {
    && |s| == 26
    && (forall i :: 0 <= i < 26 ==> lo <= s[i] < lo + 26)
    && (forall i, j :: 0 <= i < j < 26 ==> s[i] != s[j])
  }

  /** `order` puts every alphabet position back in its own place. */
  predicate IsIdentity(order: seq<int>)
  {
    forall i :: 0 <= i < |order| ==> order[i] == i
  }

  /** 26 distinct letters of a-z: a shuffled alphabet. */
  predicate IsShuffledAlphabet(s: seq<char>)
  {
    && |s| == 26
    && (forall i :: 0 <= i < 26 ==> IsLower(s[i]))
    && (forall i, j :: 0 <= i < j < 26 ==> s[i] != s[j])
  }

  /** Position `i` of a shuffled alphabet holds the letter it started with. */
  predicate FixedAt(s: seq<char>, i: int)
    requires 0 <= i < |s| && i < 26
  {
    s[i] == Letter(i)
  }

  /** Some position of `s` is not fixed. */
  predicate Moved(s: seq<char>)
    requires |s| == 26
  {
    exists k :: 0 <= k < 26 && !FixedAt(s, k)
  }

  /** The alphabet reordered by a permutation of the positions 0..25. */
  function Shuffle(order: seq<int>): (s: seq<char>)
    requires IsPermutationFrom(order, 0)
    ensures IsShuffledAlphabet(s)
    ensures forall i :: 0 <= i < 26 ==> (FixedAt(s, i) <==> order[i] == i)
  {
    var s := seq(26, i requires 0 <= i < 26 => Letter(order[i]));
    assert forall i, j :: 0 <= i < 26 && 0 <= j < 26 ==> (s[i] == s[j] <==> order[i] == order[j]);
    s
  }

  /** The position `e` steps after `i`, wrapping round the alphabet. */
  function Ahead(i: int, e: int): (k: int)
    ensures 0 <= k < 26
  {
    (i + e) % 26
  }

  /** The inner search of the repair loop: starting just after `i` and
      wrapping round, the first position that is not fixed, or `i` itself
      when every other position is fixed. `distance` counts the positions
      examined, so the search ends within 26 steps. */
  method FindSwapPartner(s: seq<char>, i: int) returns (j: int, distance: int)
    requires |s| == 26 && 0 <= i < 26
    ensures 1 <= distance <= 26 && j == Ahead(i, distance)
    ensures j == i <==> forall k :: 0 <= k < 26 && k != i ==> FixedAt(s, k)
    ensures j != i ==> !FixedAt(s, j)
    ensures forall e :: 1 <= e < distance ==> FixedAt(s, Ahead(i, e))
  {
    j := (i + 1) % 26;
    distance := 1;
    while FixedAt(s, j) && j != i
      invariant 1 <= distance <= 26 && j == Ahead(i, distance)
      invariant forall e :: 1 <= e < distance ==> FixedAt(s, Ahead(i, e))
      decreases 26 - distance
    {
      j := (j + 1) % 26;
      distance := distance + 1;
    }
    if j == i {
      forall k | 0 <= k < 26 && k != i
        ensures FixedAt(s, k)
      {
        var e := (k - i + 26) % 26;
        assert 1 <= e < 26 && Ahead(i, e) == k;
      }
    }
  }

  /** `s` with the letters at positions `i` and `j` exchanged. */
  function Swap(s: seq<char>, i: int, j: int): (r: seq<char>)
    requires |s| == 26 && 0 <= i < 26 && 0 <= j < 26
    ensures |r| == 26 && r[i] == s[j] && r[j] == s[i]
    ensures forall k :: 0 <= k < 26 && k != i && k != j ==> r[k] == s[k]
    ensures multiset(r) == multiset(s)
  {
    s[i := s[j]][j := s[i]]
  }

  /** Exchanging two positions keeps a shuffled alphabet one. */
  lemma SwapShuffled(s: seq<char>, i: int, j: int)
    requires IsShuffledAlphabet(s) && 0 <= i < 26 && 0 <= j < 26
    ensures IsShuffledAlphabet(Swap(s, i, j))
  {
    var r := Swap(s, i, j);
    forall a, b | 0 <= a < b < 26 ensures r[a] != r[b] {
      var a0 := if a == i then j else if a == j then i else a;
      var b0 := if b == i then j else if b == j then i else b;
      assert r[a] == s[a0] && r[b] == s[b0] && a0 != b0;
    }
  }

  /** One repair step: swapping the fixed position `i` with an unfixed `j`
      unfixes both and keeps every earlier position unfixed. */
  lemma SwapRepairs(s: seq<char>, i: int, j: int)
    requires IsShuffledAlphabet(s) && 0 <= i < 26 && 0 <= j < 26 && i != j
    requires FixedAt(s, i) && !FixedAt(s, j)
    requires forall k :: 0 <= k < i ==> !FixedAt(s, k)
    ensures !FixedAt(Swap(s, i, j), i) && !FixedAt(Swap(s, i, j), j)
    ensures forall k :: 0 <= k < i + 1 ==> !FixedAt(Swap(s, i, j), k)
  {
    var r := Swap(s, i, j);
    LetterInjective(i, j);
    forall k | 0 <= k < i + 1 ensures !FixedAt(r, k) {
      if k != i && k != j {
        assert r[k] == s[k] && !FixedAt(s, k);
      }
    }
  }

  /** The derangement repair of `GenerateLetterMapping`: every fixed
      position is swapped with its nearest following unfixed one. */
  method RepairDerangement(shuffled: seq<char>) returns (s: seq<char>)
    requires IsShuffledAlphabet(shuffled)
    ensures IsShuffledAlphabet(s) && multiset(s) == multiset(shuffled)
    ensures Moved(shuffled) ==> forall k :: 0 <= k < 26 ==> !FixedAt(s, k)
    ensures !Moved(shuffled) ==> s == shuffled
  {
    s := shuffled;
    for i := 0 to 26
      invariant IsShuffledAlphabet(s) && multiset(s) == multiset(shuffled)
      invariant !Moved(shuffled) ==> s == shuffled
      invariant Moved(shuffled) ==> Moved(s) && forall k :: 0 <= k < i ==> !FixedAt(s, k)
    {
      if FixedAt(s, i) {
        var j, _ := FindSwapPartner(s, i);
        if Moved(shuffled) {
          var m :| 0 <= m < 26 && !FixedAt(s, m);
          assert m != i;
          assert j != i;
        }
        if j != i {
          SwapShuffled(s, i, j);
          if Moved(shuffled) {
            SwapRepairs(s, i, j);
          }
          s := Swap(s, i, j);
        }
      }
    }
  }

  /** The distinct a-z letters of the phrase: the keys every cipher has. */
  function PhraseLetters(phrase: string): set<char>
  {
    set c | c in phrase && IsLower(c)
  }

  /** `GenerateLetterMapping` with the alphabet shuffle given as `order`. */
  method GenerateLetterMapping(phrase: string, order: seq<int>) returns (mapping: map<char, string>)
    requires IsPermutationFrom(order, 0)
    ensures mapping.Keys == PhraseLetters(phrase)
    ensures forall c :: c in mapping ==> |mapping[c]| == 1 && IsUpper(mapping[c][0])
    ensures Injective(mapping)
    ensures !IsIdentity(order) ==> forall c :: c in mapping ==> mapping[c] != [Upper(c)]
  {
    var shuffled := Shuffle(order);
    if !IsIdentity(order) {
      var k :| 0 <= k < 26 && order[k] != k;
      assert !FixedAt(shuffled, k);
    }
    var cipher := RepairDerangement(shuffled);
    mapping := map c | c in PhraseLetters(phrase) :: [Upper(cipher[Index(c)])];
    forall c, c' | c in mapping && c' in mapping && c != c'
      ensures mapping[c] != mapping[c']
    {
      assert Index(c) != Index(c');
      assert Upper(cipher[Index(c)]) != Upper(cipher[Index(c')]);
    }
    forall c | c in mapping && !IsIdentity(order)
      ensures mapping[c] != [Upper(c)]
    {
      assert !FixedAt(cipher, Index(c));
    }
  }

  /** `GenerateNumberMapping` with the shuffled 1..26 given as `numbers`. */
  function GenerateNumberMapping(phrase: string, numbers: seq<int>): (mapping: map<char, string>)
    requires IsPermutationFrom(numbers, 1)
    ensures mapping.Keys == PhraseLetters(phrase)
    ensures Injective(mapping)
    ensures forall c :: c in mapping ==>
      && (forall i :: 0 <= i < |mapping[c]| ==> IsDigit(mapping[c][i]))
      && 1 <= ParseNat(mapping[c]) <= 26
      && mapping[c] == NatToString(ParseNat(mapping[c]))
  {
    var mapping := map c | c in PhraseLetters(phrase) :: NatToString(numbers[Index(c)]);
    assert forall c :: c in mapping ==> ParseNat(mapping[c]) == numbers[Index(c)] by {
      forall c | c in mapping ensures ParseNat(mapping[c]) == numbers[Index(c)] {
        ParseNatToString(numbers[Index(c)]);
      }
    }
    mapping
  }

  const NoPhrasesMessage := "Error: No phrases available. Please ensure the phrases file exists and contains valid phrases."
  const GeneratedMessage := "Cryptogram generated successfully."

  /** `GenerateCryptogram`: `phrase` is what the phrase source returned and
      `shuffle` is the random order drawn for the kind (a permutation of
      0..25 for letters, of 1..26 for numbers). */
  method GenerateCryptogram(phrase: Option<string>, kind: CipherKind, shuffle: seq<int>)
    returns (cryptogram: Option<Cryptogram>, message: string)
    requires IsPermutationFrom(shuffle, if kind == Letters then 0 else 1)
    ensures phrase.None? ==> cryptogram.None? && message == NoPhrasesMessage
    ensures phrase.Some? ==>
      && cryptogram.Some? && message == GeneratedMessage
      && cryptogram.value.phrase == phrase.value && cryptogram.value.kind == kind
      && Built(cryptogram.value)
      && cryptogram.value.encryption.Keys == PhraseLetters(phrase.value)
      && Injective(cryptogram.value.encryption)
    ensures phrase.Some? && kind == Letters && !IsIdentity(shuffle) ==>
      forall c :: c in cryptogram.value.encryption ==> cryptogram.value.encryption[c] != [Upper(c)]
  {
    if phrase.None? {
      return None, NoPhrasesMessage;
    }
    var encryption;
    if kind == Letters {
      encryption := GenerateLetterMapping(phrase.value, shuffle);
    } else {
      encryption := GenerateNumberMapping(phrase.value, shuffle);
    }
    var built := BuildDerivedData(Fresh(phrase.value, kind, encryption));
    BuildIdempotent(Fresh(phrase.value, kind, encryption));
    cryptogram := Some(built.value);
    message := GeneratedMessage;
  }
}

=== FILE: Decimal.dfy ===
/** Decimal rendering of the cipher numbers 1..26 (`int.ToString()`), with
    its inverse so that distinct numbers are known to give distinct symbols. */
module Decimal {

  predicate IsDigit(c: char)
  {
    '0' <= c <= '9'
  }

  function Digit(d: int): (c: char)
    requires 0 <= d < 10
    ensures IsDigit(c)
  {
    ('0' as int + d) as char
  }

  function DigitValue(c: char): (d: nat)
    requires IsDigit(c)
    ensures d < 10
  {
    (c as int - '0' as int) as nat
  }

  /** `n.ToString()` for a non-negative integer: no sign, no leading zero. */
  function NatToString(n: nat): (s: string)
    ensures |s| >= 1
    ensures forall i :: 0 <= i < |s| ==> IsDigit(s[i])
  {
    if n < 10 then [Digit(n)] else NatToString(n / 10) + [Digit(n % 10)]
  }

  /** The value of a string of decimal digits. */
  function ParseNat(s: string): nat
    requires forall i :: 0 <= i < |s| ==> IsDigit(s[i])
  {
    if |s| == 0 then 0
    else
      assert IsDigit(s[|s| - 1]);
      ParseNat(s[..|s| - 1]) * 10 + DigitValue(s[|s| - 1])
  }

  /** Reading back a rendered number gives the number. */
  lemma {:induction false} ParseNatToString(n: nat)
    ensures ParseNat(NatToString(n)) == n
  {
    if n >= 10 {
      ParseNatToString(n / 10);
      var s := NatToString(n);
      assert s[..|s| - 1] == NatToString(n / 10);
    }
  }

  /** Distinct numbers render as distinct strings. */
  lemma NatToStringInjective(m: nat, n: nat)
    ensures NatToString(m) == NatToString(n) <==> m == n
  {
    if NatToString(m) == NatToString(n) {
      ParseNatToString(m);
      ParseNatToString(n);
    }
  }
}

=== FILE: GameService.dfy ===
/** The game session: each operation of the game service is a pure function
    from the session (current game and current player statistics) and its
    inputs to the next session and a tagged outcome.

    Where the service consults `Dictionary` enumeration order (the
    `FirstOrDefault` scans), the order is a parameter `order` that lists the
    keys of the player mapping once each; where it draws a random unmapped
    symbol for a hint, the symbol drawn is the parameter `pick`. */
module GameService {
  import opened Common
  import opened Cryptograms
  import opened GameStates
  import opened PlayerService

  datatype Session = Session(game: Option<GameState>, player: Option<Player>)

  /** `StartNewGame`: a fresh game with no guesses, counted as played. */
  function StartNewGame(s: Session, c: Cryptogram): (r: Session)
    ensures r.game.Some? && r.game.value.cryptogram == c && r.game.value.mapping == map[]
    ensures r.player == IncrementPlayed(s.player)
  {
    Session(Some(GameState(c, map[])), IncrementPlayed(s.player))
  }

  /** `LoadGame`: resumes a saved game; the statistics do not change. */
  function LoadGame(s: Session, g: GameState): (r: Session)
    ensures r.game == Some(g) && r.player == s.player
  {
    Session(Some(g), s.player)
  }

  /** `EndGame`: discards the game, keeping the statistics. */
  function EndGame(s: Session): (r: Session)
    ensures r.game.None? && r.player == s.player
  {
    Session(None, s.player)
  }

  datatype Validation = NoGameInProgress | NotUsed | ValidSymbol

  /** `ValidateCryptogramValue`. */
  function ValidateCryptogramValue(s: Session, symbol: string): (r: Validation)
    ensures r == ValidSymbol <==> s.game.Some? && symbol in s.game.value.cryptogram.used
    ensures r == NoGameInProgress <==> s.game.None?
  {
    if s.game.None? then NoGameInProgress
    else if symbol !in s.game.value.cryptogram.used then NotUsed
    else ValidSymbol
  }

  /** `IsValueAlreadyMapped`: the symbol already has a guess. For a symbol
      of the current game this is the complement of its being unmapped. */
  function IsValueAlreadyMapped(s: Session, symbol: string): (r: bool)
    ensures s.game.None? ==> !r
    ensures s.game.Some? && symbol in s.game.value.cryptogram.used ==>
      (r <==> symbol !in UnmappedValues(s.game.value))
    ensures r ==>
      && s.game.Some? && symbol in s.game.value.mapping
      && s.game.value.mapping[symbol] in UsedPlainLetters(s.game.value)
  {
    s.game.Some? && symbol in s.game.value.mapping
  }

  /** `IsPlainLetterAlreadyUsed`. */
  function IsPlainLetterAlreadyUsed(s: Session, letter: char): (r: bool)
    ensures r <==> s.game.Some? && exists v :: v in s.game.value.mapping && s.game.value.mapping[v] == letter
  {
    s.game.Some? && letter in UsedPlainLetters(s.game.value)
  }

  /** The `FirstOrDefault` scan: the first key in enumeration order whose
      guess is `letter`, passing over the keys in `skip`. */
  function FirstHolder(order: seq<string>, m: map<string, char>, letter: char, skip: set<string>)
    : (r: Option<string>)
    requires forall i :: 0 <= i < |order| ==> order[i] in m
    ensures r.Some? ==> r.value in order && r.value in m && m[r.value] == letter && r.value !in skip
    ensures r.None? ==> forall i :: 0 <= i < |order| ==> m[order[i]] != letter || order[i] in skip
    ensures r.Some? ==> exists i ::
      && 0 <= i < |order| && order[i] == r.value
      && forall j :: 0 <= j < i ==> m[order[j]] != letter || order[j] in skip
  {
    if |order| == 0 then None
    else if m[order[0]] == letter && order[0] !in skip then Some(order[0])
    else
      var r := FirstHolder(order[1..], m, letter, skip);
      assert r.Some? ==> exists i ::
        && 0 <= i < |order| && order[i] == r.value
        && forall j :: 0 <= j < i ==> m[order[j]] != letter || order[j] in skip
      by {
        if r.Some? {
          var i :| 0 <= i < |order[1..]| && order[1..][i] == r.value &&
            forall j :: 0 <= j < i ==> m[order[1..][j]] != letter || order[1..][j] in skip;
          assert forall j :: 1 <= j < i + 1 ==> order[j] == order[1..][j - 1];
          assert order[i + 1] == r.value;
        }
      }
      r
  }

  /** The scan finds a holder exactly when one exists, and when the mapping
      is injective it finds the one holder there is. */
  lemma FirstHolderFinds(order: seq<string>, m: map<string, char>, letter: char, skip: set<string>)
    requires Enumerates(order, m.Keys)
    ensures FirstHolder(order, m, letter, skip).Some? <==>
      exists k :: k in m && m[k] == letter && k !in skip
    ensures Injective(m) ==> forall k :: k in m && m[k] == letter && k !in skip ==>
      FirstHolder(order, m, letter, skip) == Some(k)
  {
    var r := FirstHolder(order, m, letter, skip);
    forall k | k in m && m[k] == letter && k !in skip
      ensures r.Some?
    {
      var i :| 0 <= i < |order| && order[i] == k;
    }
  }

  /** The outcomes of `EnterLetter`; the C# result flags are the members. */
  datatype EnterOutcome =
    | NoGame
    | InvalidSymbol
    | DuplicateLetter(holder: string)
    | ConfirmOverwrite(existing: char)
    | Solved
    | AllMappedButIncorrect
    | Mapped(correctGuess: bool)
  {
    predicate Success()
    {
      Solved? || AllMappedButIncorrect? || Mapped?
    }

    predicate GameWon()
    {
      Solved?
    }

    predicate IsCorrectGuess()
    {
      Mapped? && correctGuess
    }
  }

  /** The guess for `symbol` is `letter`, and every other guess of `m` is
      still in `m'` unchanged, with nothing added. */
  ghost predicate SetsOnly(m: map<string, char>, m': map<string, char>, symbol: string, letter: char)
  {
    && symbol in m' && m'[symbol] == letter
    && (forall k :: k != symbol ==> (k in m' <==> k in m))
    && (forall k :: k in m && k != symbol ==> m'[k] == m[k])
  }

  /** `EnterLetter(symbol, letter, overwriteConfirmed)`. */
  function EnterLetter(s: Session, symbol: string, letter: char, overwriteConfirmed: bool, order: seq<string>)
    : (r: (Session, EnterOutcome))
    requires s.game.Some? ==> Enumerates(order, s.game.value.mapping.Keys)
    ensures s.game.None? ==> r.1 == NoGame
    ensures s.game.Some? && symbol !in s.game.value.cryptogram.used ==> r.1 == InvalidSymbol
    ensures !r.1.Success() ==> r.0 == s
    ensures r.1.DuplicateLetter? ==>
      var m := s.game.value.mapping;
      && r.1.holder != symbol && r.1.holder in m && m[r.1.holder] == letter
      && FirstHolder(order, m, letter, {}) == Some(r.1.holder)
    ensures r.1.Mapped? ==>
      var c := s.game.value.cryptogram;
      r.1.correctGuess == (symbol in c.decryption && c.decryption[symbol] == letter)
    ensures r.1.ConfirmOverwrite? ==>
      var m := s.game.value.mapping;
      && !overwriteConfirmed && symbol in m && r.1.existing == m[symbol]
      && (Injective(m) ==> forall k :: k in m && m[k] == letter ==> k == symbol)
    ensures r.1.Success() ==>
      && s.game.Some? && r.0.game.Some?
      && var g := s.game.value;
      && var g' := r.0.game.value;
      && symbol in g.cryptogram.used
      && g'.cryptogram == g.cryptogram
      && SetsOnly(g.mapping, g'.mapping, symbol, letter)
      && (overwriteConfirmed || symbol !in g.mapping)
      && (Injective(g.mapping) ==> forall k :: k in g.mapping && g.mapping[k] == letter ==> k == symbol)
      && var guessed := RecordGuess(s.player, symbol in g.cryptogram.decryption
                                              && g.cryptogram.decryption[symbol] == letter);
      && r.0.player == (if r.1 == Solved then IncrementCompleted(guessed) else guessed)
      && (r.1 == Solved <==> IsFullyMapped(g') && IsCorrect(g'))
      && (r.1 == AllMappedButIncorrect <==> IsFullyMapped(g') && !IsCorrect(g'))
  {
    if s.game.None? then (s, NoGame)
    else
      var g := s.game.value;
      if ValidateCryptogramValue(s, symbol) != ValidSymbol then (s, InvalidSymbol)
      else
        FirstHolderFinds(order, g.mapping, letter, {});
        var holder := if IsPlainLetterAlreadyUsed(s, letter) then FirstHolder(order, g.mapping, letter, {}) else None;
        if holder.Some? && holder.value != symbol then (s, DuplicateLetter(holder.value))
        else if IsValueAlreadyMapped(s, symbol) && !overwriteConfirmed then (s, ConfirmOverwrite(g.mapping[symbol]))
        else
          var g' := g.(mapping := g.mapping[symbol := letter]);
          var isCorrectGuess := symbol in g.cryptogram.decryption && g.cryptogram.decryption[symbol] == letter;
          var guessed := RecordGuess(s.player, isCorrectGuess);
          if IsFullyMapped(g') then
            if IsCorrect(g') then (Session(Some(g'), IncrementCompleted(guessed)), Solved)
            else (Session(Some(g'), guessed), AllMappedButIncorrect)
          else (Session(Some(g'), guessed), Mapped(isCorrectGuess))
  }

  /** `EnterLetter`'s refusals are decided by the service's own queries, in
      the order it asks them: validation first, then (for an injective
      mapping) the duplicate-letter test, then the already-mapped test. */
  lemma EnterLetterQueries(s: Session, symbol: string, letter: char, overwriteConfirmed: bool, order: seq<string>)
    requires s.game.Some? ==> Enumerates(order, s.game.value.mapping.Keys)
    ensures var r := EnterLetter(s, symbol, letter, overwriteConfirmed, order).1;
      var v := ValidateCryptogramValue(s, symbol);
      && (r == NoGame <==> v == NoGameInProgress)
      && (r == InvalidSymbol <==> v == NotUsed)
      && (r.DuplicateLetter? ==> v == ValidSymbol && IsPlainLetterAlreadyUsed(s, letter))
      && (r.ConfirmOverwrite? ==> v == ValidSymbol && IsValueAlreadyMapped(s, symbol) && !overwriteConfirmed)
    ensures s.game.Some? && Injective(s.game.value.mapping) ==>
      var r := EnterLetter(s, symbol, letter, overwriteConfirmed, order).1;
      var v := ValidateCryptogramValue(s, symbol);
      var m := s.game.value.mapping;
      var duplicate := IsPlainLetterAlreadyUsed(s, letter) && !(symbol in m && m[symbol] == letter);
      && (r.DuplicateLetter? <==> v == ValidSymbol && duplicate)
      && (r.ConfirmOverwrite? <==>
            v == ValidSymbol && !duplicate && IsValueAlreadyMapped(s, symbol) && !overwriteConfirmed)
      && (r.Success() <==>
            v == ValidSymbol && !duplicate && (!IsValueAlreadyMapped(s, symbol) || overwriteConfirmed))
  {
    if s.game.Some? {
      FirstHolderFinds(order, s.game.value.mapping, letter, {});
    }
  }

  /** With an injective mapping, a letter is refused as a duplicate exactly
      when some other symbol already carries it, and the outcome names that
      symbol; a letter re-entered on its own symbol is not a duplicate. */
  lemma EnterLetterDuplicate(s: Session, symbol: string, letter: char, overwriteConfirmed: bool, order: seq<string>)
    requires s.game.Some? && Enumerates(order, s.game.value.mapping.Keys)
    requires Injective(s.game.value.mapping)
    requires symbol in s.game.value.cryptogram.used
    ensures var m := s.game.value.mapping;
      forall k :: k in m && m[k] == letter && k != symbol ==>
        EnterLetter(s, symbol, letter, overwriteConfirmed, order).1 == DuplicateLetter(k)
    ensures var m := s.game.value.mapping;
      (forall k :: k in m && m[k] == letter ==> k == symbol) ==>
        !EnterLetter(s, symbol, letter, overwriteConfirmed, order).1.DuplicateLetter?
  {
    FirstHolderFinds(order, s.game.value.mapping, letter, {});
  }

  /** With an injective mapping, a mapped symbol asks for confirmation
      exactly when the letter is free or already its own and the caller has
      not confirmed; the outcome carries the current guess. */
  lemma EnterLetterConfirmation(s: Session, symbol: string, letter: char, order: seq<string>)
    requires s.game.Some? && Enumerates(order, s.game.value.mapping.Keys)
    requires Injective(s.game.value.mapping)
    requires symbol in s.game.value.cryptogram.used && symbol in s.game.value.mapping
    requires forall k :: k in s.game.value.mapping && s.game.value.mapping[k] == letter ==> k == symbol
    ensures EnterLetter(s, symbol, letter, false, order).1 == ConfirmOverwrite(s.game.value.mapping[symbol])
    ensures EnterLetter(s, symbol, letter, true, order).1.Success()
  {
    FirstHolderFinds(order, s.game.value.mapping, letter, {});
  }

  /** EnterLetter never gives two symbols the same letter. */
  lemma EnterLetterKeepsInjective(s: Session, symbol: string, letter: char, overwriteConfirmed: bool, order: seq<string>)
    requires s.game.Some? ==> Enumerates(order, s.game.value.mapping.Keys)
    requires s.game.Some? && Injective(s.game.value.mapping)
    ensures var r := EnterLetter(s, symbol, letter, overwriteConfirmed, order);
      r.0.game.Some? && Injective(r.0.game.value.mapping)
  {
    var r := EnterLetter(s, symbol, letter, overwriteConfirmed, order);
    if r.1.Success() {
      var m := s.game.value.mapping;
      var m' := r.0.game.value.mapping;
      forall k, k' | k in m' && k' in m' && k != k'
        ensures m'[k] != m'[k']
      {
        if k == symbol {
          assert k' in m && m'[k'] == m[k'];
        } else if k' == symbol {
          assert k in m && m'[k] == m[k];
        } else {
          assert m'[k] == m[k] && m'[k'] == m[k'];
        }
      }
    }
  }

  datatype UndoOutcome = NoGameToUndo | UndoNotUsed | NotMapped | Removed(was: char)

  /** `UndoLetter(symbol)`. */
  function UndoLetter(s: Session, symbol: string): (r: (Session, UndoOutcome))
    ensures r.0.player == s.player
    ensures !r.1.Removed? ==> r.0 == s
    ensures r.1.Removed? <==>
      s.game.Some? && symbol in s.game.value.cryptogram.used && symbol in s.game.value.mapping
    ensures r.1.Removed? ==>
      && r.0.game.Some?
      && r.0.game.value.cryptogram == s.game.value.cryptogram
      && r.1.was == s.game.value.mapping[symbol]
      && r.0.game.value.mapping.Keys == s.game.value.mapping.Keys - {symbol}
      && forall k :: k in r.0.game.value.mapping ==> r.0.game.value.mapping[k] == s.game.value.mapping[k]
  {
    if s.game.None? then (s, NoGameToUndo)
    else
      var g := s.game.value;
      if symbol !in g.cryptogram.used then (s, UndoNotUsed)
      else if symbol !in g.mapping then (s, NotMapped)
      else (Session(Some(g.(mapping := g.mapping - {symbol})), s.player), Removed(g.mapping[symbol]))
  }

  /** `UndoLetter`'s outcome, in terms of the service's queries: it removes
      a guess exactly for a valid symbol that is already mapped. */
  lemma UndoLetterQueries(s: Session, symbol: string)
    ensures var r := UndoLetter(s, symbol).1;
      var v := ValidateCryptogramValue(s, symbol);
      && (r == NoGameToUndo <==> v == NoGameInProgress)
      && (r == UndoNotUsed <==> v == NotUsed)
      && (r == NotMapped <==> v == ValidSymbol && !IsValueAlreadyMapped(s, symbol))
      && (r.Removed? <==> v == ValidSymbol && IsValueAlreadyMapped(s, symbol))
  {
  }

  /** UndoLetter never gives two symbols the same letter. */
  lemma UndoLetterKeepsInjective(s: Session, symbol: string)
    requires s.game.Some? && Injective(s.game.value.mapping)
    ensures UndoLetter(s, symbol).0.game.Some? && Injective(UndoLetter(s, symbol).0.game.value.mapping)
  {
  }

  datatype HintOutcome = NoGameForHint | AllMapped | Hint(symbol: string, letter: char, evicted: Option<string>)

  /** What `GetHint` needs of its inputs: `order` enumerates the guesses,
      `pick` is one of the unmapped symbols whenever there is one, and the
      used symbols can be decrypted (true of every built cryptogram). */
  predicate HintInputs(g: GameState, pick: string, order: seq<string>)
  {
    && Enumerates(order, g.mapping.Keys)
    && (UnmappedValues(g) != {} ==> pick in UnmappedValues(g))
    && g.cryptogram.used <= g.cryptogram.decryption.Keys
  }

  /** `GetHint()`: the randomly drawn unmapped symbol `pick` receives its
      true letter; a different symbol holding that letter loses its guess. */
  function GetHint(s: Session, pick: string, order: seq<string>): (r: (Session, HintOutcome))
    requires s.game.Some? ==> HintInputs(s.game.value, pick, order)
    ensures r.0.player == s.player
    ensures !r.1.Hint? ==> r.0 == s
    ensures r.1 == AllMapped <==> s.game.Some? && IsFullyMapped(s.game.value)
    ensures r.1.Hint? ==>
      && s.game.Some? && r.0.game.Some?
      && var g := s.game.value;
      && var m := g.mapping;
      && var m' := r.0.game.value.mapping;
      && r.0.game.value.cryptogram == g.cryptogram
      && r.1.symbol == pick && pick in UnmappedValues(g)
      && r.1.letter == g.cryptogram.decryption[pick]
      && pick in m' && m'[pick] == r.1.letter
      && (r.1.evicted.Some? ==>
           var e := r.1.evicted.value;
           e != pick && e in m && m[e] == r.1.letter && e !in m')
      && (r.1.evicted.None? ==> forall k :: k in m ==> m[k] != r.1.letter)
      && (forall k :: k in m && k != pick && Some(k) != r.1.evicted ==> k in m' && m'[k] == m[k])
      && (forall k :: k in m' ==> k == pick || k in m)
  {
    if s.game.None? then (s, NoGameForHint)
    else
      var g := s.game.value;
      UnmappedEmptyIffFullyMapped(g);
      if UnmappedValues(g) == {} then (s, AllMapped)
      else
        var correct := g.cryptogram.decryption[pick];
        var conflict := FirstHolder(order, g.mapping, correct, {pick});
        FirstHolderFinds(order, g.mapping, correct, {pick});
        (Session(Some(g.(mapping := Install(g.mapping, pick, correct, conflict))), s.player),
         Hint(pick, correct, conflict))
  }

  /** The hint's update: drop the evicted guess, if any, then map `pick`. */
  function Install(m: map<string, char>, pick: string, letter: char, evicted: Option<string>): map<string, char>
  {
    var kept := if evicted.Some? then m - {evicted.value} else m;
    kept[pick := letter]
  }

  /** The symbols of `m` whose guess agrees with `dec`. */
  function Correct(m: map<string, char>, dec: map<string, char>): set<string>
  {
    set v | v in m && v in dec && m[v] == dec[v]
  }

  /** The symbols whose guess is right. */
  function CorrectGuesses(g: GameState): set<string>
  {
    Correct(g.mapping, g.cryptogram.decryption)
  }

  /** Installing the true letter of an unguessed symbol adds that symbol to
      the right guesses; the evicted holder of the letter was wrong, since
      no other symbol decrypts to it. */
  lemma InstallCorrect(m: map<string, char>, dec: map<string, char>, pick: string, evicted: Option<string>)
    requires Injective(dec) && pick in dec && pick !in m
    requires evicted.Some? ==> evicted.value in m && m[evicted.value] == dec[pick]
    ensures pick !in Correct(m, dec)
    ensures Correct(Install(m, pick, dec[pick], evicted), dec) == Correct(m, dec) + {pick}
  {
    var m' := Install(m, pick, dec[pick], evicted);
    forall v | v in Correct(m, dec)
      ensures v in Correct(m', dec)
    {
      assert Some(v) != evicted;
    }
  }

  /** Installing adds one guess, or none when a holder was evicted. */
  lemma InstallSize(m: map<string, char>, pick: string, letter: char, evicted: Option<string>)
    requires pick !in m
    requires evicted.Some? ==> evicted.value in m
    ensures |Install(m, pick, letter, evicted)| == |m| + (if evicted.None? then 1 else 0)
  {
    var m' := Install(m, pick, letter, evicted);
    match evicted
    case None =>
      assert m'.Keys == m.Keys + {pick};
    case Some(e) =>
      assert m'.Keys == (m.Keys - {e}) + {pick};
      assert |m.Keys - {e}| == |m.Keys| - 1;
  }

  /** A hint adds exactly one right guess and spoils none; the number of
      guesses rises by one unless a wrong holder of the letter was evicted,
      in which case it stays the same. */
  lemma HintProgress(s: Session, pick: string, order: seq<string>)
    requires s.game.Some? && HintInputs(s.game.value, pick, order)
    requires Injective(s.game.value.cryptogram.decryption)
    requires GetHint(s, pick, order).1.Hint?
    ensures var g := s.game.value;
      var g' := GetHint(s, pick, order).0.game.value;
      && pick !in CorrectGuesses(g)
      && CorrectGuesses(g') == CorrectGuesses(g) + {pick}
      && |CorrectGuesses(g')| == |CorrectGuesses(g)| + 1
    ensures var r := GetHint(s, pick, order);
      |r.0.game.value.mapping| == |s.game.value.mapping| + (if r.1.evicted.None? then 1 else 0)
  {
    var r := GetHint(s, pick, order);
    var g := s.game.value;
    InstallCorrect(g.mapping, g.cryptogram.decryption, pick, r.1.evicted);
    InstallSize(g.mapping, pick, r.1.letter, r.1.evicted);
  }

  /** GetHint never gives two symbols the same letter. */
  lemma GetHintKeepsInjective(s: Session, pick: string, order: seq<string>)
    requires s.game.Some? && HintInputs(s.game.value, pick, order)
    requires Injective(s.game.value.mapping)
    ensures var r := GetHint(s, pick, order);
      r.0.game.Some? && Injective(r.0.game.value.mapping)
  {
    var r := GetHint(s, pick, order);
    if r.1.Hint? {
      var m := s.game.value.mapping;
      var m' := r.0.game.value.mapping;
      forall k, k' | k in m' && k' in m' && k != k'
        ensures m'[k] != m'[k']
      {
        if k != pick && k' != pick {
          assert m'[k] == m[k] && m'[k'] == m[k'];
        }
      }
    }
  }

  /** `ShowSolution()`: the decryption map and the phrase. */
  function ShowSolution(s: Session): (r: (map<string, char>, string))
    ensures s.game.None? ==> r.0 == map[] && r.1 == ""
    ensures s.game.Some? ==> r.1 == s.game.value.cryptogram.phrase
    ensures s.game.Some? && Built(s.game.value.cryptogram) ==>
      var c := s.game.value.cryptogram;
      && r.0.Keys == c.encryption.Values
      && forall ch :: ch in c.encryption ==> c.encryption[ch] in r.0 && r.0[c.encryption[ch]] == ch
  {
    if s.game.None? then (map[], "")
    else (s.game.value.cryptogram.decryption, s.game.value.cryptogram.phrase)
  }

  /** The revealed solution, taken as the player's mapping, solves the game. */
  lemma ShowSolutionSolves(s: Session)
    requires s.game.Some? && Built(s.game.value.cryptogram)
    ensures IsCorrect(GameState(s.game.value.cryptogram, ShowSolution(s).0))
  {
  }

  /** The display pieces: a space, the guess for a mapped letter's symbol,
      or "_"; a character without a symbol shows nothing. */
  function Display(text: string, enc: map<char, string>, guesses: map<string, char>): string
  {
    if |text| == 0 then ""
    else
      var head :=
        if text[0] == ' ' then " "
        else if text[0] !in enc then ""
        else if enc[text[0]] in guesses then [guesses[enc[text[0]]]]
        else "_";
      head + Display(text[1..], enc, guesses)
  }

  /** `GetDisplayString()`: the phrase with the player's guesses filled in
      and "_" for each symbol not yet guessed. When every non-space
      character has a symbol, the display lines up with the phrase. */
  function GetDisplayString(s: Session): (r: string)
    ensures s.game.None? ==> r == ""
    ensures s.game.Some? ==> |r| <= |s.game.value.cryptogram.phrase|
    ensures s.game.Some? && Covers(s.game.value.cryptogram.phrase, s.game.value.cryptogram.encryption) ==>
      var p := s.game.value.cryptogram.phrase;
      var enc := s.game.value.cryptogram.encryption;
      var m := s.game.value.mapping;
      && |r| == |p|
      && forall i :: 0 <= i < |p| ==>
           r[i] == if p[i] == ' ' then ' ' else if enc[p[i]] in m then m[enc[p[i]]] else '_'
  {
    if s.game.None? then ""
    else
      var g := s.game.value;
      DisplayLength(g.cryptogram.phrase, g.cryptogram.encryption, g.mapping);
      if Covers(g.cryptogram.phrase, g.cryptogram.encryption) then
        DisplayCovered(g.cryptogram.phrase, g.cryptogram.encryption, g.mapping);
        Display(g.cryptogram.phrase, g.cryptogram.encryption, g.mapping)
      else
        Display(g.cryptogram.phrase, g.cryptogram.encryption, g.mapping)
  }

  /** The display of a text is the displays of its halves, in order. */
  lemma {:induction false} DisplayAppend(a: string, b: string, enc: map<char, string>, guesses: map<string, char>)
    ensures Display(a + b, enc, guesses) == Display(a, enc, guesses) + Display(b, enc, guesses)
  {
    if |a| > 0 {
      DisplayAppend(a[1..], b, enc, guesses);
      assert (a + b)[1..] == a[1..] + b;
    } else {
      assert a + b == b;
    }
  }

  /** A character that is neither a space nor mapped shows nothing. */
  lemma DisplayDropsUnmapped(ch: char, enc: map<char, string>, guesses: map<string, char>)
    requires ch != ' ' && ch !in enc
    ensures Display([ch], enc, guesses) == ""
  {
    assert [ch][1..] == [];
  }

  /** With every non-space character mapped, the display shows, position by
      position, a space, the guess for the character's symbol, or "_". */
  lemma {:induction false} DisplayCovered(text: string, enc: map<char, string>, guesses: map<string, char>)
    requires Covers(text, enc)
    ensures |Display(text, enc, guesses)| == |text|
    ensures forall i :: 0 <= i < |text| ==>
      Display(text, enc, guesses)[i] ==
        if text[i] == ' ' then ' ' else if enc[text[i]] in guesses then guesses[enc[text[i]]] else '_'
  {
    if |text| > 0 {
      assert Covers(text[1..], enc) by {
        forall i | 0 <= i < |text[1..]| && text[1..][i] != ' ' ensures text[1..][i] in enc {
          assert text[1..][i] == text[i + 1];
        }
      }
      DisplayCovered(text[1..], enc, guesses);
      var rest := Display(text[1..], enc, guesses);
      forall i | 1 <= i < |text|
        ensures Display(text, enc, guesses)[i] ==
          if text[i] == ' ' then ' ' else if enc[text[i]] in guesses then guesses[enc[text[i]]] else '_'
      {
        assert Display(text, enc, guesses)[i] == rest[i - 1];
        assert text[1..][i - 1] == text[i];
      }
    }
  }

  lemma {:induction false} DisplayLength(text: string, enc: map<char, string>, guesses: map<string, char>)
    ensures |Display(text, enc, guesses)| <= |text|
  {
    if |text| > 0 {
      DisplayLength(text[1..], enc, guesses);
    }
  }

  lemma {:induction false} DisplayReveals(text: string, enc: map<char, string>, guesses: map<string, char>)
    requires forall i :: 0 <= i < |text| && text[i] != ' ' ==>
      text[i] in enc && enc[text[i]] in guesses && guesses[enc[text[i]]] == text[i]
    ensures Display(text, enc, guesses) == text
  {
    if |text| > 0 {
      DisplayReveals(text[1..], enc, guesses);
      assert text == [text[0]] + text[1..];
    }
  }

  /** Once a game is solved, the display shows the phrase itself (when every
      character of the phrase is a space or has a symbol). */
  lemma SolvedDisplayShowsPhrase(s: Session)
    requires s.game.Some? && Built(s.game.value.cryptogram) && IsCorrect(s.game.value)
    requires var p := s.game.value.cryptogram.phrase;
      forall i :: 0 <= i < |p| && p[i] != ' ' ==> p[i] in s.game.value.cryptogram.encryption
    ensures GetDisplayString(s) == s.game.value.cryptogram.phrase
  {
    var c := s.game.value.cryptogram;
    var m := s.game.value.mapping;
    forall i | 0 <= i < |c.phrase| && c.phrase[i] != ' '
      ensures c.encryption[c.phrase[i]] in m && m[c.encryption[c.phrase[i]]] == c.phrase[i]
    {
      var ch := c.phrase[i];
      assert c.encryption[ch] in c.used;
    }
    DisplayReveals(c.phrase, c.encryption, m);
  }
}

=== FILE: GameState.dfy ===
/** A game in progress: the cryptogram being played and the player's partial
    mapping from cipher symbol to guessed letter, with the derived views the
    game service consults. */
module GameStates {
  import opened Common
  import opened Cryptograms

  datatype GameState = GameState(cryptogram: Cryptogram, mapping: map<string, char>)

  /** Every symbol the phrase uses has a guess; guesses for other symbols
      do not matter. */
  predicate IsFullyMapped(g: GameState)
  {
    forall v :: v in g.cryptogram.used ==> v in g.mapping
  }

  /** Every symbol the phrase uses has a guess equal to its true letter. */
  predicate IsCorrect(g: GameState)
  {
    forall v :: v in g.cryptogram.used ==>
      v in g.mapping && v in g.cryptogram.decryption && g.mapping[v] == g.cryptogram.decryption[v]
  }

  /** The letters the player has guessed so far. */
  function UsedPlainLetters(g: GameState): (letters: set<char>)
    ensures forall l :: l in letters <==> exists v :: v in g.mapping && g.mapping[v] == l
  {
    g.mapping.Values
  }

  /** The used symbols that have no guess yet. */
  function UnmappedValues(g: GameState): (unmapped: set<string>)
    ensures unmapped == g.cryptogram.used - g.mapping.Keys
  {
    set v | v in g.cryptogram.used && v !in g.mapping
  }

  /** The `IsCorrect` getter as the source writes it: a walk over the used
      symbols that stops at the first missing or wrong guess. */
  method CheckCorrect(g: GameState) returns (correct: bool)
    ensures correct <==> IsCorrect(g)
  {
    var remaining := g.cryptogram.used;
    while remaining != {}
      invariant remaining <= g.cryptogram.used
      invariant forall v :: v in g.cryptogram.used && v !in remaining ==>
        v in g.mapping && v in g.cryptogram.decryption && g.mapping[v] == g.cryptogram.decryption[v]
      decreases remaining
    {
      var v :| v in remaining;
      if v !in g.mapping {
        return false;
      }
      if v !in g.cryptogram.decryption {
        return false;
      }
      if g.mapping[v] != g.cryptogram.decryption[v] {
        return false;
      }
      remaining := remaining - {v};
    }
    return true;
  }

  /** A solved game is fully mapped. */
  lemma CorrectImpliesFullyMapped(g: GameState)
    ensures IsCorrect(g) ==> IsFullyMapped(g)
  {
  }

  /** Nothing is left unmapped exactly when the game is fully mapped. */
  lemma UnmappedEmptyIffFullyMapped(g: GameState)
    ensures UnmappedValues(g) == {} <==> IsFullyMapped(g)
  {
    if !IsFullyMapped(g) {
      var v :| v in g.cryptogram.used && v !in g.mapping;
      assert v in UnmappedValues(g);
    }
  }

  /** Before any guess every used symbol is unmapped. */
  lemma UnmappedOfFreshGame(c: Cryptogram)
    ensures UnmappedValues(GameState(c, map[])) == c.used
  {
  }
}

=== FILE: PlayerService.dfy ===
/** Player statistics: the current player (if any) and the counters that
    starting games, entering letters and winning drive. The player store is
    an oracle: what it returned and whether the player's file exists are
    parameters. */
module PlayerService {
  import opened Common

  /** The counters are C# `int`s read back from a text file, so the model
      does not assume they are non-negative. */
  datatype Player = Player(name: string, played: int, completed: int, guesses: int, correctGuesses: int)

  /** `new Player(name)`: all counters start at zero. */
  function NewPlayer(name: string): (p: Player)
    ensures p.name == name
    ensures p.played == 0 && p.completed == 0 && p.guesses == 0 && p.correctGuesses == 0
  {
    Player(name, 0, 0, 0, 0)
  }

  datatype LoadPlayerOutcome = EmptyName | CorruptFile | CreatedNew | WelcomeBack
  {
    predicate Success()
    {
      this == CreatedNew || this == WelcomeBack
    }
  }

  /** `LoadPlayer`: `stored` is what the player store read for `name` and
      `fileExists` whether a file for `name` is present. */
  function LoadPlayer(current: Option<Player>, name: string, stored: Option<Player>, fileExists: bool)
    : (r: (Option<Player>, LoadPlayerOutcome))
    ensures r.1.Success() <==> !IsBlank(name) && (stored.Some? || !fileExists)
    ensures !r.1.Success() ==> r.0 == current
    ensures IsBlank(name) ==> r.1 == EmptyName
    ensures !IsBlank(name) && stored.None? && fileExists ==> r.1 == CorruptFile
    ensures r.1 == CreatedNew ==>
      stored.None? && r.0.Some? && r.0.value.name == name && r.0.value.played == 0
      && r.0.value.completed == 0 && r.0.value.guesses == 0 && r.0.value.correctGuesses == 0
    ensures r.1 == WelcomeBack ==> stored.Some? && r.0 == stored
  {
    if IsBlank(name) then (current, EmptyName)
    else if stored.None? && fileExists then (current, CorruptFile)
    else if stored.None? then (Some(NewPlayer(name)), CreatedNew)
    else (stored, WelcomeBack)
  }

  /** `CreatePlayer`: a new player with zero counters becomes current. */
  function CreatePlayer(name: string): (r: (Option<Player>, Player))
    ensures r.0 == Some(r.1) && r.1.name == name
    ensures r.1.played == 0 && r.1.completed == 0 && r.1.guesses == 0 && r.1.correctGuesses == 0
  {
    var p := NewPlayer(name);
    (Some(p), p)
  }

  datatype SaveOutcome = NoPlayer | SaveFailed | Saved

  /** `SaveCurrentPlayer`: `written` is whether the store managed to write
      the file. */
  function SaveCurrentPlayer(current: Option<Player>, written: bool): (r: SaveOutcome)
    ensures r == Saved <==> current.Some? && written
    ensures current.None? ==> r == NoPlayer
  {
    if current.None? then NoPlayer else if !written then SaveFailed else Saved
  }

  /** `IncrementCryptogramsPlayed`. */
  function IncrementPlayed(p: Option<Player>): (r: Option<Player>)
    ensures r.Some? <==> p.Some?
    ensures r.Some? ==>
      && r.value.played == p.value.played + 1
      && r.value.name == p.value.name && r.value.completed == p.value.completed
      && r.value.guesses == p.value.guesses && r.value.correctGuesses == p.value.correctGuesses
  {
    match p
    case None => None
    case Some(q) => Some(q.(played := q.played + 1))
  }

  /** `IncrementCryptogramsCompleted`. */
  function IncrementCompleted(p: Option<Player>): (r: Option<Player>)
    ensures r.Some? <==> p.Some?
    ensures r.Some? ==>
      && r.value.completed == p.value.completed + 1
      && r.value.name == p.value.name && r.value.played == p.value.played
      && r.value.guesses == p.value.guesses && r.value.correctGuesses == p.value.correctGuesses
  {
    match p
    case None => None
    case Some(q) => Some(q.(completed := q.completed + 1))
  }

  /** `RecordGuess`: one more guess, and one more correct guess when it was
      right. */
  function RecordGuess(p: Option<Player>, isCorrect: bool): (r: Option<Player>)
    ensures r.Some? <==> p.Some?
    ensures r.Some? ==>
      && r.value.guesses == p.value.guesses + 1
      && r.value.correctGuesses == p.value.correctGuesses + (if isCorrect then 1 else 0)
      && r.value.name == p.value.name && r.value.played == p.value.played
      && r.value.completed == p.value.completed
  {
    match p
    case None => None
    case Some(q) =>
      Some(q.(guesses := q.guesses + 1,
              correctGuesses := if isCorrect then q.correctGuesses + 1 else q.correctGuesses))
  }

  /** Never more correct guesses than guesses. */
  predicate AccuracyBounded(p: Option<Player>)
  {
    p.Some? ==> p.value.correctGuesses <= p.value.guesses
  }

  /** Recording a guess keeps the correct-guess count within the guess
      count, and starting or winning a game does not touch either. */
  lemma StatsKeepAccuracyBounded(p: Option<Player>, isCorrect: bool)
    requires AccuracyBounded(p)
    ensures AccuracyBounded(RecordGuess(p, isCorrect))
    ensures AccuracyBounded(IncrementPlayed(p))
    ensures AccuracyBounded(IncrementCompleted(p))
  {
  }
}

=== FILE: SaveFormat.dfy ===
/** The saved-game text format: four `Key=value` lines (Phrase, Type,
    EncryptionMap, PlayerMapping), the two maps written as comma-separated
    `key=value` entries. Saving builds the lines and loading parses and
    validates them; the file itself is a list of lines, and `None` stands for
    a missing file. */
module GameStateRepository {
  import opened Common
  import opened Text
  import opened Cryptograms
  import opened GameStates

  /** How a cipher kind is written: the enum member's name. */
  function KindName(k: CipherKind): string
  {
    match k
    case Letters => "Letters"
    case Numbers => "Numbers"
  }

  /** `Enum.TryParse<CryptogramType>` is a parameter; all the model relies
      on is that it reads back the two member names. */
  predicate ReadsKindNames(parseKind: string -> Option<CipherKind>)
  {
    parseKind(KindName(Letters)) == Some(Letters) && parseKind(KindName(Numbers)) == Some(Numbers)
  }

  // ---------------------------------------------------------------------
  // Map entries

  /** An encryption-map entry: `a=X`. */
  function EncryptionEntry(letter: char, symbol: string): string
  {
    [letter] + "=" + symbol
  }

  /** A player-mapping entry: `X=e`. */
  function GuessEntry(symbol: string, letter: char): string
  {
    symbol + "=" + [letter]
  }

  /** An entry `ParseEncryptionMapping` accepts: one UTF-16 character,
      then the first `=`. */
  predicate EncryptionShape(entry: string)
  {
    |entry| >= 2 && entry[0] != '=' && IsBmp(entry[0]) && entry[1] == '='
  }

  /** An entry `ParsePlayerMapping` accepts: its first `=` is followed by
      exactly one UTF-16 character. */
  predicate GuessShape(entry: string)
  {
    && |entry| >= 2 && entry[|entry| - 2] == '=' && '=' !in entry[..|entry| - 2]
    && IsBmp(entry[|entry| - 1])
  }

  lemma EncryptionShapeSplit(entry: string)
    requires EncryptionShape(entry)
    ensures SplitFirst(entry, '=') == Some(([entry[0]], entry[2..]))
  {
    assert entry == [entry[0]] + ['='] + entry[2..];
    SplitFirstAt([entry[0]], '=', entry[2..]);
  }

  lemma GuessShapeSplit(entry: string)
    requires GuessShape(entry)
    ensures SplitFirst(entry, '=') == Some((entry[..|entry| - 2], [entry[|entry| - 1]]))
  {
    assert entry == entry[..|entry| - 2] + ['='] + [entry[|entry| - 1]];
    SplitFirstAt(entry[..|entry| - 2], '=', [entry[|entry| - 1]]);
  }

  /** One entry of `ParseEncryptionMapping`: it splits on its first `=`,
      and the part before must have `Length` 1: one character of the Basic
      Multilingual Plane. */
  function ParseEncryptionEntry(entry: string): (r: Option<(char, string)>)
    ensures r.Some? <==> EncryptionShape(entry)
    ensures r.Some? ==> entry == EncryptionEntry(r.value.0, r.value.1)
  {
    match SplitFirst(entry, '=')
    case None => None
    case Some((key, value)) =>
      if |key| != 1 || !IsBmp(key[0]) then
        assert !EncryptionShape(entry) by {
          if EncryptionShape(entry) {
            EncryptionShapeSplit(entry);
          }
        }
        None
      else
        assert entry[0] == key[0] && entry[1] == '=';
        Some((key[0], value))
  }

  /** One entry of `ParsePlayerMapping`: it splits on its first `=`, and
      the part after must have `Length` 1: one character of the Basic
      Multilingual Plane. */
  function ParseGuessEntry(entry: string): (r: Option<(string, char)>)
    ensures r.Some? <==> GuessShape(entry)
    ensures r.Some? ==> entry == GuessEntry(r.value.0, r.value.1) && '=' !in r.value.0
  {
    match SplitFirst(entry, '=')
    case None => None
    case Some((key, value)) =>
      if |value| != 1 || !IsBmp(value[0]) then
        assert !GuessShape(entry) by {
          if GuessShape(entry) {
            GuessShapeSplit(entry);
          }
        }
        None
      else
        assert entry[..|entry| - 2] == key;
        Some((key, value[0]))
  }

  lemma EncryptionEntryRoundTrip(letter: char, symbol: string)
    requires letter != '=' && IsBmp(letter)
    ensures ParseEncryptionEntry(EncryptionEntry(letter, symbol)) == Some((letter, symbol))
  {
    SplitFirstAt([letter], '=', symbol);
  }

  lemma GuessEntryRoundTrip(symbol: string, letter: char)
    requires '=' !in symbol && IsBmp(letter)
    ensures ParseGuessEntry(GuessEntry(symbol, letter)) == Some((symbol, letter))
  {
    SplitFirstAt(symbol, '=', [letter]);
  }

  /** The entries of a map, in the enumeration order `order`. */
  function RenderEntries<K, V>(m: map<K, V>, order: seq<K>, render: (K, V) -> string): (r: seq<string>)
    requires forall i :: 0 <= i < |order| ==> order[i] in m
    ensures |r| == |order|
    ensures forall i :: 0 <= i < |order| ==> r[i] == render(order[i], m[order[i]])
  {
    if |order| == 0 then []
    else RenderEntries(m, order[..|order| - 1], render) + [render(order[|order| - 1], m[order[|order| - 1]])]
  }

  /** The loop of the two map parsers: every entry must parse, and a later
      entry for a key overwrites an earlier one. */
  function ParseEntries<K, V>(entries: seq<string>, parse: string -> Option<(K, V)>): (r: Option<map<K, V>>)
    ensures r.None? <==> exists i :: 0 <= i < |entries| && parse(entries[i]).None?
    ensures r.Some? ==>
      r.value.Keys == set i | 0 <= i < |entries| && parse(entries[i]).Some? :: parse(entries[i]).value.0
  {
    if |entries| == 0 then Some(map[])
    else
      var init, last := entries[..|entries| - 1], entries[|entries| - 1];
      assert forall i :: 0 <= i < |init| ==> init[i] == entries[i];
      match ParseEntries(init, parse)
      case None => None
      case Some(m) =>
        match parse(last)
        case None => None
        case Some((k, v)) =>
          assert forall i :: 0 <= i < |entries| ==> parse(entries[i]).Some? by {
            forall i | 0 <= i < |entries| ensures parse(entries[i]).Some? {
              if i < |init| {
                assert entries[i] == init[i];
              }
            }
          }
          Some(m[k := v])
  }

  /** Among entries for the same key, the last one decides the value. */
  lemma {:induction false} ParseEntriesLastWins<K, V>(entries: seq<string>, parse: string -> Option<(K, V)>, i: nat)
    requires ParseEntries(entries, parse).Some?
    requires i < |entries| && parse(entries[i]).Some?
    requires forall j :: i < j < |entries| ==> parse(entries[j]).value.0 != parse(entries[i]).value.0
    ensures ParseEntries(entries, parse).value[parse(entries[i]).value.0] == parse(entries[i]).value.1
  {
    var init := entries[..|entries| - 1];
    if i < |entries| - 1 {
      assert init[i] == entries[i];
      assert ParseEntries(init, parse).Some?;
      forall j | i < j < |init| ensures parse(init[j]).value.0 != parse(init[i]).value.0 {
        assert init[j] == entries[j];
      }
      ParseEntriesLastWins(init, parse, i);
    }
  }

  /** Parsing the entries of a map gives back the part of the map they
      list. */
  lemma {:induction false} ParseRendered<K, V>(m: map<K, V>, order: seq<K>, render: (K, V) -> string,
                                               parse: string -> Option<(K, V)>)
    requires forall i :: 0 <= i < |order| ==> order[i] in m
    requires forall k :: k in m ==> parse(render(k, m[k])) == Some((k, m[k]))
    ensures ParseEntries(RenderEntries(m, order, render), parse) == Some(map k | k in order :: m[k])
  {
    if |order| > 0 {
      var init, last := order[..|order| - 1], order[|order| - 1];
      var entries := RenderEntries(m, order, render);
      assert entries[..|entries| - 1] == RenderEntries(m, init, render);
      ParseRendered(m, init, render, parse);
      assert (map k | k in order :: m[k]) == (map k | k in init :: m[k])[last := m[last]] by {
        assert forall k :: k in order <==> k in init || k == last;
      }
    }
  }

  /** `ParseEncryptionMapping`. */
  function ParseEncryptionMapping(text: string): Option<map<char, string>>
  {
    ParseEntries(Split(text, ','), ParseEncryptionEntry)
  }

  /** `ParsePlayerMapping`. */
  function ParsePlayerMapping(text: string): Option<map<string, char>>
  {
    ParseEntries(Split(text, ','), ParseGuessEntry)
  }

  /** An encryption map fails to parse exactly when some comma-separated
      entry does not start with one UTF-16 character followed by `=`. */
  lemma EncryptionMappingFails(text: string)
    ensures ParseEncryptionMapping(text).None? <==>
      exists i :: 0 <= i < |Split(text, ',')| &&
        !EncryptionShape(Split(text, ',')[i])
  {
    var entries := Split(text, ',');
    var parse := ParseEncryptionEntry;
    assert ParseEncryptionMapping(text) == ParseEntries(entries, parse);
    if i :| 0 <= i < |entries| && !EncryptionShape(entries[i]) {
      assert ParseEncryptionEntry(entries[i]).None?;
      assert parse(entries[i]).None?;
      assert ParseEntries(entries, parse).None?;
      assert ParseEncryptionMapping(text).None?;
    }
    if ParseEncryptionMapping(text).None? {
      var i :| 0 <= i < |entries| && parse(entries[i]).None?;
      assert ParseEncryptionEntry(entries[i]).None?;
      assert !EncryptionShape(entries[i]);
      assert exists i :: 0 <= i < |Split(text, ',')| && !EncryptionShape(Split(text, ',')[i]);
    }
  }

  /** A player mapping fails to parse exactly when some comma-separated
      entry does not end in `=` and one UTF-16 character with no earlier
      `=`. */
  lemma PlayerMappingFails(text: string)
    ensures ParsePlayerMapping(text).None? <==>
      exists i :: 0 <= i < |Split(text, ',')| &&
        !GuessShape(Split(text, ',')[i])
  {
    var entries := Split(text, ',');
    var parse := ParseGuessEntry;
    assert ParsePlayerMapping(text) == ParseEntries(entries, parse);
    if i :| 0 <= i < |entries| && !GuessShape(entries[i]) {
      assert ParseGuessEntry(entries[i]).None?;
      assert parse(entries[i]).None?;
      assert ParseEntries(entries, parse).None?;
      assert ParsePlayerMapping(text).None?;
    }
    if ParsePlayerMapping(text).None? {
      var i :| 0 <= i < |entries| && parse(entries[i]).None?;
      assert ParseGuessEntry(entries[i]).None?;
      assert !GuessShape(entries[i]);
      assert exists i :: 0 <= i < |Split(text, ',')| && !GuessShape(Split(text, ',')[i]);
    }
  }

  /** An encryption entry whose key lies above U+FFFF is a two-unit key
      in .NET, so the whole map is rejected. */
  lemma AstralKeyRejected(text: string, i: int, key: char, symbol: string)
    requires 0 <= i < |Split(text, ',')| && Split(text, ',')[i] == EncryptionEntry(key, symbol)
    requires !IsBmp(key)
    ensures ParseEncryptionMapping(text) == None
  {
    EncryptionMappingFails(text);
  }

  /** A guess entry whose letter lies above U+FFFF is a two-unit value in
      .NET, so the whole mapping is rejected. */
  lemma AstralLetterRejected(text: string, i: int, symbol: string, letter: char)
    requires 0 <= i < |Split(text, ',')| && Split(text, ',')[i] == GuessEntry(symbol, letter)
    requires !IsBmp(letter)
    ensures ParsePlayerMapping(text) == None
  {
    PlayerMappingFails(text);
  }

  /** The text of an empty map is rejected: it splits into one empty entry,
      which has no `=`. */
  lemma EmptyEncryptionMapRejected()
    ensures ParseEncryptionMapping("") == None
  {
    assert Split("", ',') == [""];
  }

  // ---------------------------------------------------------------------
  // Lines

  /** The value of a `Key=value` line. */
  function FieldLine(key: string, value: string): string
  {
    key + "=" + value
  }

  /** The lines `SaveGameState` writes, with the dictionaries enumerated in
      the orders `letterOrder` and `symbolOrder`. */
  function SaveLines(g: GameState, letterOrder: seq<char>, symbolOrder: seq<string>): (lines: seq<string>)
    requires Enumerates(letterOrder, g.cryptogram.encryption.Keys)
    requires Enumerates(symbolOrder, g.mapping.Keys)
    ensures |lines| == 4
  {
    [ FieldLine("Phrase", g.cryptogram.phrase),
      FieldLine("Type", KindName(g.cryptogram.kind)),
      FieldLine("EncryptionMap", Join(",", RenderEntries(g.cryptogram.encryption, letterOrder, EncryptionEntry))),
      FieldLine("PlayerMapping", Join(",", RenderEntries(g.mapping, symbolOrder, GuessEntry))) ]
  }

  /** One line of `LoadGameState`: split on the first `=` and both halves
      trimmed; `None` for a line without `=`. */
  function ParseLine(line: string): Option<(string, string)>
  {
    match SplitFirst(line, '=')
    case None => None
    case Some((key, value)) => Some((Trim(key), Trim(value)))
  }

  /** The line loop of `LoadGameState` over the parsed lines: later lines
      overwrite earlier ones, and lines without `=` are skipped. */
  function Fields(parsed: seq<Option<(string, string)>>): map<string, string>
  {
    if |parsed| == 0 then map[]
    else
      var data := Fields(parsed[..|parsed| - 1]);
      match parsed[|parsed| - 1]
      case None => data
      case Some((key, value)) => data[key := value]
  }

  /** Each line parsed on its own. */
  function ParseLines(lines: seq<string>): (parsed: seq<Option<(string, string)>>)
    ensures |parsed| == |lines|
    ensures forall i :: 0 <= i < |lines| ==> parsed[i] == ParseLine(lines[i])
  {
    if |lines| == 0 then [] else ParseLines(lines[..|lines| - 1]) + [ParseLine(lines[|lines| - 1])]
  }

  /** The fields a file's lines define. */
  function ParseData(lines: seq<string>): map<string, string>
  {
    Fields(ParseLines(lines))
  }

  /** Line `line` sets the field `key`. */
  predicate Defines(line: string, key: string)
  {
    ParseLine(line).Some? && ParseLine(line).value.0 == key
  }

  predicate Sets(p: Option<(string, string)>, key: string)
  {
    p.Some? && p.value.0 == key
  }

  lemma {:induction false} FieldsHas(parsed: seq<Option<(string, string)>>, key: string)
    ensures key in Fields(parsed) <==> exists i :: 0 <= i < |parsed| && Sets(parsed[i], key)
  {
    if |parsed| > 0 {
      var init := parsed[..|parsed| - 1];
      FieldsHas(init, key);
      assert forall i :: 0 <= i < |init| ==> init[i] == parsed[i];
    }
  }

  lemma {:induction false} FieldsLastWins(parsed: seq<Option<(string, string)>>, i: nat, key: string, value: string)
    requires i < |parsed| && parsed[i] == Some((key, value))
    requires forall j :: i < j < |parsed| ==> !Sets(parsed[j], key)
    ensures key in Fields(parsed) && Fields(parsed)[key] == value
  {
    var init := parsed[..|parsed| - 1];
    if i < |parsed| - 1 {
      assert init[i] == parsed[i];
      forall j | i < j < |init| ensures !Sets(init[j], key) {
        assert init[j] == parsed[j];
      }
      FieldsLastWins(init, i, key, value);
      assert !Sets(parsed[|parsed| - 1], key);
    }
  }

  /** A field is present exactly when some line sets it. */
  lemma ParseDataHas(lines: seq<string>, key: string)
    ensures key in ParseData(lines) <==> exists i :: 0 <= i < |lines| && Defines(lines[i], key)
  {
    var parsed := ParseLines(lines);
    FieldsHas(parsed, key);
    assert forall i :: 0 <= i < |lines| ==> (Sets(parsed[i], key) <==> Defines(lines[i], key));
  }

  /** A field's value is that of the last line setting it. */
  lemma ParseDataLastWins(lines: seq<string>, i: nat, key: string, value: string)
    requires i < |lines| && ParseLine(lines[i]) == Some((key, value))
    requires forall j :: i < j < |lines| ==> !Defines(lines[j], key)
    ensures key in ParseData(lines) && ParseData(lines)[key] == value
  {
    var parsed := ParseLines(lines);
    assert forall j :: 0 <= j < |lines| ==> (Sets(parsed[j], key) <==> Defines(lines[j], key));
    FieldsLastWins(parsed, i, key, value);
  }

  // ---------------------------------------------------------------------
  // Loading

  /** `LoadResult` together with the loaded state. */
  datatype LoadOutcome = Loaded(state: GameState) | NotFound | Corrupted

  /** `LoadGameState`: `file` is the file's lines, `None` when there is no
      save file; `parseKind` is `Enum.TryParse`. */
  function LoadGameState(file: Option<seq<string>>, parseKind: string -> Option<CipherKind>): (r: LoadOutcome)
    ensures r == NotFound <==> file.None?
    ensures file.Some? ==>
      var data := ParseData(file.value);
      && (r.Loaded? <==>
            && "Phrase" in data && "Type" in data && "EncryptionMap" in data
            && parseKind(data["Type"]).Some?
            && ParseEncryptionMapping(data["EncryptionMap"]).Some?
            && Injective(ParseEncryptionMapping(data["EncryptionMap"]).value)
            && ("PlayerMapping" in data && data["PlayerMapping"] != "" ==>
                  ParsePlayerMapping(data["PlayerMapping"]).Some?))
      && (r.Loaded? ==>
            && Built(r.state.cryptogram)
            && r.state.cryptogram.phrase == data["Phrase"]
            && Some(r.state.cryptogram.kind) == parseKind(data["Type"])
            && Some(r.state.cryptogram.encryption) == ParseEncryptionMapping(data["EncryptionMap"])
            && r.state.mapping ==
                 if "PlayerMapping" in data && data["PlayerMapping"] != ""
                 then ParsePlayerMapping(data["PlayerMapping"]).value
                 else map[])
  {
    if file.None? then NotFound
    else
      var data := ParseData(file.value);
      if "Phrase" !in data || "Type" !in data || "EncryptionMap" !in data then Corrupted
      else
        match parseKind(data["Type"])
        case None => Corrupted
        case Some(kind) =>
          match ParseEncryptionMapping(data["EncryptionMap"])
          case None => Corrupted
          case Some(encryption) =>
            match BuildDerivedData(Fresh(data["Phrase"], kind, encryption))
            case Failure(_) => Corrupted
            case Success(cryptogram) =>
              BuildIdempotent(Fresh(data["Phrase"], kind, encryption));
              if "PlayerMapping" in data && data["PlayerMapping"] != "" then
                match ParsePlayerMapping(data["PlayerMapping"])
                case None => Corrupted
                case Some(mapping) => Loaded(GameState(cryptogram, mapping))
              else Loaded(GameState(cryptogram, map[]))
  }

  // ---------------------------------------------------------------------
  // Round trip

  /** The encryption map can be written and read back: no letter is `,`,
      `=` or white space, and no symbol holds `,` or white space. Every
      letter is one UTF-16 unit, as every .NET `char` is. */
  predicate SaveableEncryption(enc: map<char, string>)
  {
    forall k :: k in enc ==>
      && k != ',' && k != '=' && !IsWhiteSpace(k) && IsBmp(k)
      && ',' !in enc[k] && NoWhiteSpace(enc[k])
  }

  /** The player mapping can be written and read back: no symbol holds `,`,
      `=` or white space, and no guessed letter is `,` or white space. Every
      guessed letter is one UTF-16 unit, as every .NET `char` is. */
  predicate SaveableGuesses(m: map<string, char>)
  {
    forall k :: k in m ==>
      && ',' !in k && '=' !in k && NoWhiteSpace(k)
      && m[k] != ',' && !IsWhiteSpace(m[k]) && IsBmp(m[k])
  }

  /** A field name `ParseLine` reads back unchanged: no `=`, and neither
      end is white space. */
  predicate CleanKey(key: string)
  {
    '=' !in key && |key| > 0 && !IsWhiteSpace(key[0]) && !IsWhiteSpace(key[|key| - 1])
  }

  lemma ParseFieldLine(key: string, value: string)
    requires CleanKey(key)
    ensures ParseLine(FieldLine(key, value)) == Some((key, Trim(value)))
  {
    TrimIdentity(key);
    SplitFirstAt(key, '=', value);
  }

  /** A line appended at the end overrides the earlier value of its key. */
  lemma FieldsSnoc(parsed: seq<Option<(string, string)>>, f: (string, string))
    ensures Fields(parsed + [Some(f)]) == Fields(parsed)[f.0 := f.1]
  {
    assert (parsed + [Some(f)])[..|parsed|] == parsed;
  }

  /** A line appended at the end sets its field, over any earlier value. */
  lemma ParseDataSnoc(lines: seq<string>, line: string, f: (string, string))
    requires ParseLine(line) == Some(f)
    ensures ParseData(lines + [line]) == ParseData(lines)[f.0 := f.1]
  {
    assert ParseLines(lines + [line]) == ParseLines(lines) + [Some(f)];
    FieldsSnoc(ParseLines(lines), f);
  }

  /** The four fields of a saved game. */
  function SavedFields(phrase: string, kind: string, enc: string, guesses: string): map<string, string>
  {
    map["Phrase" := phrase, "Type" := kind, "EncryptionMap" := enc, "PlayerMapping" := guesses]
  }

  lemma SavedFieldsLookup(phrase: string, kind: string, enc: string, guesses: string)
    ensures var data := SavedFields(phrase, kind, enc, guesses);
      && "Phrase" in data && data["Phrase"] == phrase
      && "Type" in data && data["Type"] == kind
      && "EncryptionMap" in data && data["EncryptionMap"] == enc
      && "PlayerMapping" in data && data["PlayerMapping"] == guesses
  {
    KeysDistinct();
  }

  /** The four saved lines read back as the four fields. */
  lemma ParseSavedFields(phrase: string, kind: string, enc: string, guesses: string)
    ensures ParseData([FieldLine("Phrase", phrase), FieldLine("Type", kind),
                       FieldLine("EncryptionMap", enc), FieldLine("PlayerMapping", guesses)])
      == SavedFields(Trim(phrase), Trim(kind), Trim(enc), Trim(guesses))
  {
    ParseFieldLines("Phrase", phrase, "Type", kind, "EncryptionMap", enc, "PlayerMapping", guesses);
  }

  lemma ParseFieldLines(k0: string, v0: string, k1: string, v1: string,
                        k2: string, v2: string, k3: string, v3: string)
    requires CleanKey(k0) && CleanKey(k1) && CleanKey(k2) && CleanKey(k3)
    ensures ParseData([FieldLine(k0, v0), FieldLine(k1, v1), FieldLine(k2, v2), FieldLine(k3, v3)])
      == map[k0 := Trim(v0), k1 := Trim(v1), k2 := Trim(v2), k3 := Trim(v3)]
  {
    var lines := [FieldLine(k0, v0), FieldLine(k1, v1), FieldLine(k2, v2)];
    ParseThreeFieldLines(k0, v0, k1, v1, k2, v2);
    AppendFieldLine(lines, k3, v3);
    assert lines + [FieldLine(k3, v3)] == [FieldLine(k0, v0), FieldLine(k1, v1), FieldLine(k2, v2), FieldLine(k3, v3)];
  }

  lemma ParseThreeFieldLines(k0: string, v0: string, k1: string, v1: string, k2: string, v2: string)
    requires CleanKey(k0) && CleanKey(k1) && CleanKey(k2)
    ensures ParseData([FieldLine(k0, v0), FieldLine(k1, v1), FieldLine(k2, v2)])
      == map[k0 := Trim(v0), k1 := Trim(v1), k2 := Trim(v2)]
  {
    var lines := [FieldLine(k0, v0), FieldLine(k1, v1)];
    ParseTwoFieldLines(k0, v0, k1, v1);
    AppendFieldLine(lines, k2, v2);
    assert lines + [FieldLine(k2, v2)] == [FieldLine(k0, v0), FieldLine(k1, v1), FieldLine(k2, v2)];
  }

  lemma ParseTwoFieldLines(k0: string, v0: string, k1: string, v1: string)
    requires CleanKey(k0) && CleanKey(k1)
    ensures ParseData([FieldLine(k0, v0), FieldLine(k1, v1)]) == map[k0 := Trim(v0), k1 := Trim(v1)]
  {
    var lines := [FieldLine(k0, v0)];
    ParseOneFieldLine(k0, v0);
    AppendFieldLine(lines, k1, v1);
    assert lines + [FieldLine(k1, v1)] == [FieldLine(k0, v0), FieldLine(k1, v1)];
  }

  lemma ParseOneFieldLine(k0: string, v0: string)
    requires CleanKey(k0)
    ensures ParseData([FieldLine(k0, v0)]) == map[k0 := Trim(v0)]
  {
    var lines: seq<string> := [];
    assert ParseData(lines) == map[];
    AppendFieldLine(lines, k0, v0);
    assert lines + [FieldLine(k0, v0)] == [FieldLine(k0, v0)];
  }

  /** A `Key=value` line appended to a file sets its field to the trimmed
      value. */
  lemma AppendFieldLine(lines: seq<string>, key: string, value: string)
    requires CleanKey(key)
    ensures ParseData(lines + [FieldLine(key, value)]) == ParseData(lines)[key := Trim(value)]
  {
    ParseFieldLine(key, value);
    ParseDataSnoc(lines, FieldLine(key, value), (key, Trim(value)));
  }

  /** The text of a non-empty map has no white space at either end and is
      not empty, when no entry is empty or holds white space. */
  lemma MapTextClean<K, V>(m: map<K, V>, order: seq<K>, render: (K, V) -> string)
    requires Enumerates(order, m.Keys) && |order| > 0
    requires forall k :: k in m ==> render(k, m[k]) != "" && NoWhiteSpace(render(k, m[k]))
    ensures var text := Join(",", RenderEntries(m, order, render));
      Trim(text) == text && text != ""
  {
    var entries := RenderEntries(m, order, render);
    var text := Join(",", entries);
    JoinNoWhiteSpace(",", entries);
    TrimIdentity(text);
    JoinStartsWith(",", entries);
    assert entries[0] == render(order[0], m[order[0]]);
  }

  /** A map written as comma-separated entries reads back as itself, when no
      entry holds a comma and each entry parses back to its key and value. */
  lemma MapTextParses<K, V>(m: map<K, V>, order: seq<K>, render: (K, V) -> string,
                            parse: string -> Option<(K, V)>)
    requires Enumerates(order, m.Keys) && |order| > 0
    requires forall k :: k in m ==> parse(render(k, m[k])) == Some((k, m[k])) && ',' !in render(k, m[k])
    ensures ParseEntries(Split(Join(",", RenderEntries(m, order, render)), ','), parse) == Some(m)
  {
    var entries := RenderEntries(m, order, render);
    assert forall i :: 0 <= i < |entries| ==> ',' !in entries[i];
    SplitJoin(entries, ',');
    assert Split(Join(",", entries), ',') == entries;
    ParseRendered(m, order, render, parse);
    assert (map k | k in order :: m[k]) == m;
  }

  /** An encryption-map entry of a saveable map is not empty and holds no
      comma or white space. */
  lemma EncryptionEntryClean(letter: char, symbol: string)
    requires letter != ',' && !IsWhiteSpace(letter) && ',' !in symbol && NoWhiteSpace(symbol)
    ensures var e := EncryptionEntry(letter, symbol);
      e != "" && ',' !in e && NoWhiteSpace(e)
  {
    var e := EncryptionEntry(letter, symbol);
    assert forall i :: 2 <= i < |e| ==> e[i] == symbol[i - 2];
  }

  /** A player-mapping entry of a saveable mapping is not empty and holds no
      comma or white space. */
  lemma GuessEntryClean(symbol: string, letter: char)
    requires letter != ',' && !IsWhiteSpace(letter) && ',' !in symbol && NoWhiteSpace(symbol)
    ensures var e := GuessEntry(symbol, letter);
      e != "" && ',' !in e && NoWhiteSpace(e)
  {
    var e := GuessEntry(symbol, letter);
    assert forall i :: 0 <= i < |symbol| ==> e[i] == symbol[i];
  }

  /** The saved EncryptionMap text survives the line's trimming and parses
      back to the map. */
  lemma EncryptionTextRoundTrip(enc: map<char, string>, order: seq<char>)
    requires Enumerates(order, enc.Keys) && |enc| > 0
    requires SaveableEncryption(enc)
    ensures var text := Join(",", RenderEntries(enc, order, EncryptionEntry));
      Trim(text) == text && ParseEncryptionMapping(text) == Some(enc)
  {
    assert order[0] in enc;
    forall k | k in enc
      ensures ParseEncryptionEntry(EncryptionEntry(k, enc[k])) == Some((k, enc[k]))
      ensures EncryptionEntry(k, enc[k]) != "" && ',' !in EncryptionEntry(k, enc[k])
      ensures NoWhiteSpace(EncryptionEntry(k, enc[k]))
    {
      EncryptionEntryRoundTrip(k, enc[k]);
      EncryptionEntryClean(k, enc[k]);
    }
    MapTextClean(enc, order, EncryptionEntry);
    MapTextParses(enc, order, EncryptionEntry, ParseEncryptionEntry);
  }

  /** The saved PlayerMapping text survives the line's trimming; it is empty
      exactly when the mapping is, and otherwise parses back to it. */
  lemma GuessTextRoundTrip(mapping: map<string, char>, order: seq<string>)
    requires Enumerates(order, mapping.Keys)
    requires SaveableGuesses(mapping)
    ensures var text := Join(",", RenderEntries(mapping, order, GuessEntry));
      && Trim(text) == text
      && (text == "" <==> |mapping| == 0)
      && (|mapping| > 0 ==> ParsePlayerMapping(text) == Some(mapping))
  {
    if |order| > 0 {
      assert order[0] in mapping;
      forall k | k in mapping
        ensures ParseGuessEntry(GuessEntry(k, mapping[k])) == Some((k, mapping[k]))
        ensures GuessEntry(k, mapping[k]) != "" && ',' !in GuessEntry(k, mapping[k])
        ensures NoWhiteSpace(GuessEntry(k, mapping[k]))
      {
        GuessEntryRoundTrip(k, mapping[k]);
        GuessEntryClean(k, mapping[k]);
      }
      MapTextClean(mapping, order, GuessEntry);
      MapTextParses(mapping, order, GuessEntry, ParseGuessEntry);
    } else {
      assert mapping.Keys == {};
    }
  }

  /** Build depends only on the phrase, kind and encryption map. */
  lemma BuildFromBase(c: Cryptogram)
    ensures BuildDerivedData(Fresh(c.phrase, c.kind, c.encryption)) == BuildDerivedData(c)
  {
  }

  /** Saving a built game and loading the lines back gives the same game,
      when the encryption map is not empty, the phrase has no surrounding
      white space, and the maps are saveable. */
  lemma SaveLoadRoundTrip(g: GameState, letterOrder: seq<char>, symbolOrder: seq<string>,
                          parseKind: string -> Option<CipherKind>)
    requires ReadsKindNames(parseKind)
    requires Built(g.cryptogram)
    requires Enumerates(letterOrder, g.cryptogram.encryption.Keys)
    requires Enumerates(symbolOrder, g.mapping.Keys)
    requires |g.cryptogram.encryption| > 0
    requires Trim(g.cryptogram.phrase) == g.cryptogram.phrase
    requires SaveableEncryption(g.cryptogram.encryption)
    requires SaveableGuesses(g.mapping)
    ensures LoadGameState(Some(SaveLines(g, letterOrder, symbolOrder)), parseKind) == Loaded(g)
  {
    var c := g.cryptogram;
    var lines := SaveLines(g, letterOrder, symbolOrder);
    var data := ParseData(lines);
    SavedData(g, letterOrder, symbolOrder);
    SavedFieldsLookup(c.phrase, KindName(c.kind),
                      Join(",", RenderEntries(c.encryption, letterOrder, EncryptionEntry)),
                      Join(",", RenderEntries(g.mapping, symbolOrder, GuessEntry)));
    EncryptionTextRoundTrip(c.encryption, letterOrder);
    GuessTextRoundTrip(g.mapping, symbolOrder);
    assert parseKind(data["Type"]) == Some(c.kind) by {
      assert data["Type"] == KindName(c.kind);
    }
    assert ParseEncryptionMapping(data["EncryptionMap"]) == Some(c.encryption);
    assert Injective(c.encryption) by {
      BuiltInjective(c);
    }
    var r := LoadGameState(Some(lines), parseKind);
    assert r.Loaded?;
    var d := r.state.cryptogram;
    assert d.phrase == c.phrase;
    assert d.kind == c.kind;
    assert d.encryption == c.encryption;
    BuiltUnique(d, c);
    assert r.state.mapping == g.mapping;
  }

  /** A built cryptogram passed the injectivity check. */
  lemma BuiltInjective(c: Cryptogram)
    requires Built(c)
    ensures Injective(c.encryption)
  {
  }

  /** Two built cryptograms with the same phrase, kind and encryption map
      are the same. */
  lemma BuiltUnique(a: Cryptogram, b: Cryptogram)
    requires Built(a) && Built(b)
    requires a.phrase == b.phrase && a.kind == b.kind && a.encryption == b.encryption
    ensures a == b
  {
    BuildFromBase(a);
    BuildFromBase(b);
  }

  /** The fields the saved lines define. */
  lemma SavedData(g: GameState, letterOrder: seq<char>, symbolOrder: seq<string>)
    requires Enumerates(letterOrder, g.cryptogram.encryption.Keys)
    requires Enumerates(symbolOrder, g.mapping.Keys)
    requires |g.cryptogram.encryption| > 0
    requires Trim(g.cryptogram.phrase) == g.cryptogram.phrase
    requires SaveableEncryption(g.cryptogram.encryption)
    requires SaveableGuesses(g.mapping)
    ensures ParseData(SaveLines(g, letterOrder, symbolOrder)) ==
      SavedFields(g.cryptogram.phrase, KindName(g.cryptogram.kind),
                  Join(",", RenderEntries(g.cryptogram.encryption, letterOrder, EncryptionEntry)),
                  Join(",", RenderEntries(g.mapping, symbolOrder, GuessEntry)))
  {
    var c := g.cryptogram;
    var encText := Join(",", RenderEntries(c.encryption, letterOrder, EncryptionEntry));
    var guessText := Join(",", RenderEntries(g.mapping, symbolOrder, GuessEntry));
    ParseSavedFields(c.phrase, KindName(c.kind), encText, guessText);
    KindNameTrimmed(c.kind);
    EncryptionTextRoundTrip(c.encryption, letterOrder);
    GuessTextRoundTrip(g.mapping, symbolOrder);
  }

  lemma KindNameTrimmed(k: CipherKind)
    ensures Trim(KindName(k)) == KindName(k)
  {
    TrimIdentity(KindName(k));
  }

  /** The four field names are different. */
  lemma KeysDistinct()
    ensures "Phrase" != "Type" && "Phrase" != "EncryptionMap" && "Phrase" != "PlayerMapping"
    ensures "Type" != "EncryptionMap" && "Type" != "PlayerMapping" && "EncryptionMap" != "PlayerMapping"
  {
    assert |"Phrase"| == 6 && |"Type"| == 4 && |"EncryptionMap"| == 13 && |"PlayerMapping"| == 13;
    assert "EncryptionMap"[0] != "PlayerMapping"[0];
  }

}

=== FILE: Scoreboard.dfy ===
/** The scoreboard: the players who completed at least one cryptogram,
    ranked by completion proportion (completed / played, 0 when nothing was
    played) and then by completions, both descending, first ten only. The
    player store's list is a parameter. Proportions are compared exactly as
    fractions. */
module ScoreboardService {
  import opened Common
  import opened PlayerService

  /** `ScoreboardEntry`. */
  datatype Entry = Entry(name: string, completed: int, played: int)

  /** The two counters the ranking looks at. */
  datatype Standing = Standing(completed: int, played: int)

  function PlayerStanding(p: Player): Standing
  {
    Standing(p.completed, p.played)
  }

  function EntryStanding(e: Entry): Standing
  {
    Standing(e.completed, e.played)
  }

  /** The entry `GetTopTen` makes of a player. */
  function EntryOf(p: Player): (e: Entry)
    ensures EntryStanding(e) == PlayerStanding(p) && e.name == p.name
  {
    Entry(p.name, p.completed, p.played)
  }

  /** `CompletionProportion` as a fraction with a positive denominator. */
  function Proportion(s: Standing): (r: (int, int))
    ensures r.1 > 0
    ensures s.played == 0 ==> r.0 == 0
    ensures s.played != 0 ==> r.0 * s.played == s.completed * r.1
  {
    if s.played == 0 then (0, 1)
    else if s.played > 0 then (s.completed, s.played)
    else (-s.completed, -s.played)
  }

  /** Positive when `a`'s proportion is larger than `b`'s, zero when they
      are equal, negative when it is smaller. */
  function Cross(a: Standing, b: Standing): int
  {
    Proportion(a).0 * Proportion(b).1 - Proportion(b).0 * Proportion(a).1
  }

  /** `a` is ranked strictly before `b`: a larger proportion, or the same
      proportion and more completions. */
  predicate Outranks(a: Standing, b: Standing)
  {
    Cross(a, b) > 0 || (Cross(a, b) == 0 && a.completed > b.completed)
  }

  /** `a` may be ranked before `b`. */
  predicate RanksAtLeast(a: Standing, b: Standing)
  {
    Cross(a, b) > 0 || (Cross(a, b) == 0 && a.completed >= b.completed)
  }

  /** Comparing the other way round flips the sign. */
  lemma CrossSwap(a: Standing, b: Standing)
    ensures Cross(b, a) == -Cross(a, b)
  {
  }

  /** The cross products of three fractions are linked: the middle
      denominator times the outer comparison is a positive combination of the
      two inner ones. */
  lemma CrossIdentity(n1: int, d1: int, n2: int, d2: int, n3: int, d3: int)
    ensures d2 * (n1 * d3 - n3 * d1) == d3 * (n1 * d2 - n2 * d1) + d1 * (n2 * d3 - n3 * d2)
  {
    assert d3 * (n1 * d2 - n2 * d1) == n1 * d2 * d3 - n2 * d1 * d3;
    assert d1 * (n2 * d3 - n3 * d2) == n2 * d1 * d3 - n3 * d1 * d2;
    assert d2 * (n1 * d3 - n3 * d1) == n1 * d2 * d3 - n3 * d1 * d2;
  }

  lemma SignOfProduct(d: int, x: int)
    requires d > 0
    ensures x >= 0 <==> d * x >= 0
    ensures x > 0 <==> d * x > 0
  {
    if x < 0 {
      assert d * x == -(d * -x);
    }
  }

  /** The proportion comparison is transitive, strictly so when either step
      is strict. */
  lemma CrossTransitive(a: Standing, b: Standing, c: Standing)
    requires Cross(a, b) >= 0 && Cross(b, c) >= 0
    ensures Cross(a, c) >= 0
    ensures Cross(a, b) > 0 || Cross(b, c) > 0 ==> Cross(a, c) > 0
  {
    var (n1, d1) := Proportion(a);
    var (n2, d2) := Proportion(b);
    var (n3, d3) := Proportion(c);
    CrossIdentity(n1, d1, n2, d2, n3, d3);
    SignOfProduct(d3, Cross(a, b));
    SignOfProduct(d1, Cross(b, c));
    SignOfProduct(d2, Cross(a, c));
  }

  lemma RanksAtLeastTransitive(a: Standing, b: Standing, c: Standing)
    requires RanksAtLeast(a, b) && RanksAtLeast(b, c)
    ensures RanksAtLeast(a, c)
  {
    CrossTransitive(a, b, c);
    if Cross(a, c) == 0 {
      CrossSwap(a, c);
      CrossTransitive(c, a, b);
    }
  }

  /** Any two standings can be ranked one way or the other. */
  lemma RanksTotal(a: Standing, b: Standing)
    ensures !Outranks(a, b) <==> RanksAtLeast(b, a)
  {
    CrossSwap(a, b);
  }

  /** Every item may be ranked before every later one. */
  ghost predicate Ranked<T>(s: seq<T>, key: T -> Standing)
  {
    forall i, j :: 0 <= i < j < |s| ==> RanksAtLeast(key(s[i]), key(s[j]))
  }

  /** One step of a stable insertion sort: `x` goes after everything that
      ranks at least as high and before the first item it outranks. */
  function Insert<T>(x: T, s: seq<T>, key: T -> Standing): (r: seq<T>)
    ensures multiset(r) == multiset(s) + multiset{x}
  {
    if |s| == 0 then [x]
    else if Outranks(key(x), key(s[0])) then [x] + s
    else
      assert s == [s[0]] + s[1..];
      [s[0]] + Insert(x, s[1..], key)
  }

  /** `OrderByDescending(CompletionProportion).ThenByDescending(completed)`:
      LINQ's ordering is stable, and so is this insertion sort. */
  function SortByRank<T>(s: seq<T>, key: T -> Standing): (r: seq<T>)
    ensures multiset(r) == multiset(s)
  {
    if |s| == 0 then []
    else
      assert s == s[..|s| - 1] + [s[|s| - 1]];
      Insert(s[|s| - 1], SortByRank(s[..|s| - 1], key), key)
  }

  lemma {:induction false} InsertRanked<T>(x: T, s: seq<T>, key: T -> Standing)
    requires Ranked(s, key)
    ensures Ranked(Insert(x, s, key), key)
  {
    if |s| > 0 {
      var r := Insert(x, s, key);
      if Outranks(key(x), key(s[0])) {
        forall j | 1 <= j < |r| ensures RanksAtLeast(key(r[0]), key(r[j])) {
          assert r[j] == s[j - 1];
          if j > 1 {
            RanksAtLeastTransitive(key(x), key(s[0]), key(s[j - 1]));
          }
        }
      } else {
        var t := Insert(x, s[1..], key);
        InsertRanked(x, s[1..], key);
        RanksTotal(key(x), key(s[0]));
        forall j | 1 <= j < |r| ensures RanksAtLeast(key(r[0]), key(r[j])) {
          assert r[j] == t[j - 1];
          assert t[j - 1] in multiset(s[1..]) + multiset{x} by {
            assert t[j - 1] in multiset(t);
          }
          if t[j - 1] != x {
            var k :| 1 <= k < |s| && s[k] == t[j - 1] by {
              assert t[j - 1] in s[1..];
            }
          }
        }
      }
    }
  }

  lemma {:induction false} SortRanked<T>(s: seq<T>, key: T -> Standing)
    ensures Ranked(SortByRank(s, key), key)
  {
    if |s| > 0 {
      SortRanked(s[..|s| - 1], key);
      InsertRanked(s[|s| - 1], SortByRank(s[..|s| - 1], key), key);
    }
  }

  /** Projecting the items with a function that keeps their standing
      commutes with the sort: sorting the players and then making entries
      gives the entries sorted. */
  lemma {:induction false} InsertCommutes<T, U>(x: T, s: seq<T>, key: T -> Standing,
                                                f: T -> U, key': U -> Standing)
    requires forall t :: key'(f(t)) == key(t)
    ensures Project(f, Insert(x, s, key)) == Insert(f(x), Project(f, s), key')
  {
    if |s| > 0 && !Outranks(key(x), key(s[0])) {
      InsertCommutes(x, s[1..], key, f, key');
      assert Project(f, s)[1..] == Project(f, s[1..]);
    }
  }

  lemma {:induction false} SortCommutes<T, U>(s: seq<T>, key: T -> Standing,
                                              f: T -> U, key': U -> Standing)
    requires forall t :: key'(f(t)) == key(t)
    ensures Project(f, SortByRank(s, key)) == SortByRank(Project(f, s), key')
  {
    if |s| > 0 {
      var init, last := s[..|s| - 1], s[|s| - 1];
      var p := Project(f, s);
      assert p[..|p| - 1] == Project(f, init);
      assert p[|p| - 1] == f(last);
      assert SortByRank(p, key') == Insert(f(last), SortByRank(Project(f, init), key'), key');
      SortCommutes(init, key, f, key');
      InsertCommutes(last, SortByRank(init, key), key, f, key');
    }
  }

  /** `Select(f)`. */
  function Project<T, U>(f: T -> U, s: seq<T>): (r: seq<U>)
    ensures |r| == |s| && forall i :: 0 <= i < |s| ==> r[i] == f(s[i])
  {
    seq(|s|, i requires 0 <= i < |s| => f(s[i]))
  }

  /** `Where(p => p.CryptogramsCompleted > 0)`. */
  function Eligible(players: seq<Player>): (r: seq<Player>)
    ensures forall p :: p in r <==> p in players && p.completed > 0
    ensures multiset(r) <= multiset(players)
    ensures forall p :: multiset(r)[p] == if p.completed > 0 then multiset(players)[p] else 0
  {
    if |players| == 0 then []
    else
      var rest := Eligible(players[1..]);
      assert players == [players[0]] + players[1..];
      if players[0].completed > 0 then [players[0]] + rest else rest
  }

  const NoStatsMessage := "No player stats have been stored yet."
  const NoneCompletedMessage := "No players have successfully completed a cryptogram yet."
  const TopTenMessage := "Top 10 players by completion proportion:"

  function Min(a: int, b: int): int
  {
    if a <= b then a else b
  }

  /** Some player has completed at least one cryptogram. */
  predicate AnyCompleted(players: seq<Player>)
  {
    exists p :: p in players && p.completed > 0
  }

  /** The eligible players in ranking order. */
  function Ranking(players: seq<Player>): (r: seq<Player>)
    ensures multiset(r) == multiset(Eligible(players))
    ensures Ranked(r, PlayerStanding)
  {
    var r := SortByRank(Eligible(players), PlayerStanding);
    SortRanked(Eligible(players), PlayerStanding);
    r
  }

  /** `GetTopTen` over the list the player store returned: no list with a
      message for each empty case, otherwise the first ten of the ranking as
      entries. */
  function GetTopTen(players: seq<Player>): (r: (Option<seq<Entry>>, string))
    ensures |players| == 0 ==> r == (None, NoStatsMessage)
    ensures |players| > 0 && !AnyCompleted(players) ==> r == (None, NoneCompletedMessage)
    ensures AnyCompleted(players) ==>
      && r.0.Some? && r.1 == TopTenMessage
      && 1 <= |r.0.value| <= 10 && |r.0.value| == Min(10, |Eligible(players)|)
  {
    if |players| == 0 then (None, NoStatsMessage)
    else
      var eligible := Eligible(players);
      if |eligible| == 0 then (None, NoneCompletedMessage)
      else
        var ranked := SortByRank(eligible, PlayerStanding);
        (Some(Project(EntryOf, ranked[..Min(10, |ranked|)])), TopTenMessage)
  }

  /** The entries are the first ones of the ranking. */
  lemma TopTenIsPrefix(players: seq<Player>)
    requires AnyCompleted(players)
    ensures GetTopTen(players).0.value == Project(EntryOf, Ranking(players)[..Min(10, |Eligible(players)|)])
  {
  }

  /** Every entry is copied from a player who completed at least one
      cryptogram. */
  lemma TopTenFromEligible(players: seq<Player>)
    requires AnyCompleted(players)
    ensures forall e :: e in GetTopTen(players).0.value ==>
      e.completed > 0 && exists p :: p in players && EntryOf(p) == e
  {
    var entries := GetTopTen(players).0.value;
    var ranked := Ranking(players);
    TopTenIsPrefix(players);
    forall e | e in entries
      ensures e.completed > 0 && exists p :: p in players && EntryOf(p) == e
    {
      var i :| 0 <= i < |entries| && entries[i] == e;
      assert ranked[i] in multiset(Eligible(players)) by {
        assert ranked[i] in multiset(ranked);
      }
      assert ranked[i] in players;
    }
  }

  /** No entry appears more often than the eligible players it comes
      from. */
  lemma TopTenSubMultiset(players: seq<Player>)
    requires AnyCompleted(players)
    ensures multiset(GetTopTen(players).0.value) <= multiset(Project(EntryOf, Eligible(players)))
  {
    var eligible := Eligible(players);
    var n := Min(10, |eligible|);
    var ranked := SortByRank(eligible, PlayerStanding);
    TopTenIsPrefix(players);
    ProjectSortMultiset(eligible, PlayerStanding, EntryOf, EntryStanding);
    ProjectPrefix(EntryOf, ranked, n);
    PrefixSubMultiset(Project(EntryOf, ranked), n);
  }

  lemma ProjectSortMultiset<T, U>(s: seq<T>, key: T -> Standing, f: T -> U, key': U -> Standing)
    requires forall t :: key'(f(t)) == key(t)
    ensures multiset(Project(f, SortByRank(s, key))) == multiset(Project(f, s))
  {
    SortCommutes(s, key, f, key');
  }

  lemma ProjectPrefix<T, U>(f: T -> U, s: seq<T>, n: nat)
    requires n <= |s|
    ensures Project(f, s[..n]) == Project(f, s)[..n]
  {
  }

  lemma PrefixSubMultiset<T>(s: seq<T>, n: nat)
    requires n <= |s|
    ensures multiset(s[..n]) <= multiset(s)
  {
    assert s == s[..n] + s[n..];
  }

  /** The entries are in ranking order: a larger proportion first, and
      for equal proportions more completions first. */
  lemma TopTenRanked(players: seq<Player>)
    requires AnyCompleted(players)
    ensures Ranked(GetTopTen(players).0.value, EntryStanding)
  {
    TopTenIsPrefix(players);
  }

  /** An eligible player left off the board ranks no higher than the last
      entry shown; with ten or fewer eligible players nobody is left off. */
  lemma TopTenOmitted(players: seq<Player>)
    requires AnyCompleted(players)
    ensures var entries := GetTopTen(players).0.value;
      forall p :: p in players && p.completed > 0 ==>
        || EntryOf(p) in entries
        || RanksAtLeast(EntryStanding(entries[|entries| - 1]), PlayerStanding(p))
    ensures |Eligible(players)| <= 10 ==>
      forall p :: p in players && p.completed > 0 ==> EntryOf(p) in GetTopTen(players).0.value
  {
    var entries := GetTopTen(players).0.value;
    var ranked := Ranking(players);
    var n := Min(10, |Eligible(players)|);
    TopTenIsPrefix(players);
    forall p | p in players && p.completed > 0
      ensures || EntryOf(p) in entries
              || RanksAtLeast(EntryStanding(entries[|entries| - 1]), PlayerStanding(p))
      ensures |Eligible(players)| <= 10 ==> EntryOf(p) in entries
    {
      assert p in multiset(ranked) by {
        assert p in Eligible(players);
      }
      var k :| 0 <= k < |ranked| && ranked[k] == p;
      if k < n {
        assert entries[k] == EntryOf(p);
      } else {
        assert EntryStanding(entries[n - 1]) == PlayerStanding(ranked[n - 1]);
      }
    }
  }
}

=== FILE: Text.dfy ===
/** The .NET string operations the game uses: Concat, Join, Split, the
    two-piece Split on the first separator, and Trim. */
module Text {
  import opened Common

  /** `string.Concat` over a list of strings. */
  function Concat(parts: seq<string>): string
  {
    if |parts| == 0 then "" else parts[0] + Concat(parts[1..])
  }

  /** `string.Join(sep, parts)`. */
  function Join(sep: string, parts: seq<string>): string
  {
    if |parts| == 0 then ""
    else if |parts| == 1 then parts[0]
    else parts[0] + sep + Join(sep, parts[1..])
  }

  /** `s.Split(c)`: every piece between separators, empty pieces included,
      so that the result is never an empty list. */
  function Split(s: string, c: char): (pieces: seq<string>)
    ensures |pieces| >= 1
    ensures forall i :: 0 <= i < |pieces| ==> c !in pieces[i]
  {
    if |s| == 0 then [""]
    else
      var rest := Split(s[1..], c);
      if s[0] == c then [""] + rest
      else [[s[0]] + rest[0]] + rest[1..]
  }

  /** The position of the first `c` in `s`, if any. */
  function FindFirst(s: string, c: char): (r: Option<nat>)
    ensures r.None? <==> c !in s
    ensures r.Some? ==> r.value < |s| && s[r.value] == c && c !in s[..r.value]
  {
    if |s| == 0 then None
    else if s[0] == c then Some(0)
    else
      match FindFirst(s[1..], c)
      case None => None
      case Some(i) =>
        assert s[..i + 1] == [s[0]] + s[1..][..i];
        Some(i + 1)
  }

  /** `s.Split(c, 2)` when it yields two pieces: the text before the first
      `c` and everything after it (which may contain further `c`s). */
  function SplitFirst(s: string, c: char): (r: Option<(string, string)>)
    ensures r.None? <==> c !in s
    ensures r.Some? ==> s == r.value.0 + [c] + r.value.1 && c !in r.value.0
  {
    match FindFirst(s, c)
    case None => None
    case Some(i) =>
      assert s == s[..i] + [c] + s[i + 1..];
      Some((s[..i], s[i + 1..]))
  }

  /** `s.TrimStart()`: drops the leading white space and nothing else. */
  function TrimStart(s: string): (r: string)
    ensures |r| <= |s| && r == s[|s| - |r|..]
    ensures forall i :: 0 <= i < |s| - |r| ==> IsWhiteSpace(s[i])
    ensures |r| > 0 ==> !IsWhiteSpace(r[0])
  {
    if |s| > 0 && IsWhiteSpace(s[0]) then TrimStart(s[1..]) else s
  }

  /** `s.TrimEnd()`: drops the trailing white space and nothing else. */
  function TrimEnd(s: string): (r: string)
    ensures |r| <= |s| && r == s[..|r|]
    ensures forall i :: |r| <= i < |s| ==> IsWhiteSpace(s[i])
    ensures |r| > 0 ==> !IsWhiteSpace(r[|r| - 1])
  {
    if |s| > 0 && IsWhiteSpace(s[|s| - 1]) then TrimEnd(s[..|s| - 1]) else s
  }

  /** `s.Trim()`. */
  function Trim(s: string): string
  {
    TrimEnd(TrimStart(s))
  }

  /** No character of `s` is white space. */
  predicate NoWhiteSpace(s: string)
  {
    forall i :: 0 <= i < |s| ==> !IsWhiteSpace(s[i])
  }

  /** Trim leaves a string alone exactly when it neither starts nor ends
      with white space. */
  lemma TrimIdentity(s: string)
    ensures Trim(s) == s <==> (|s| == 0 || (!IsWhiteSpace(s[0]) && !IsWhiteSpace(s[|s| - 1])))
  {
    if |s| > 0 && !IsWhiteSpace(s[0]) && !IsWhiteSpace(s[|s| - 1]) {
      assert TrimStart(s) == s;
    }
  }

  /** A joined string has no white space when neither the pieces nor the
      separator do. */
  lemma {:induction false} JoinNoWhiteSpace(sep: string, parts: seq<string>)
    requires NoWhiteSpace(sep)
    requires forall i :: 0 <= i < |parts| ==> NoWhiteSpace(parts[i])
    ensures NoWhiteSpace(Join(sep, parts))
  {
    if |parts| > 1 {
      JoinNoWhiteSpace(sep, parts[1..]);
    }
  }

  /** A joined string is at least as long as its first piece. */
  lemma JoinStartsWith(sep: string, parts: seq<string>)
    requires |parts| > 0
    ensures |Join(sep, parts)| >= |parts[0]|
  {
  }

  /** Splitting text without a separator gives back the text itself. */
  lemma {:induction false} SplitWithoutSeparator(s: string, c: char)
    requires c !in s
    ensures Split(s, c) == [s]
  {
    if |s| > 0 {
      assert c !in s[1..] by {
        forall i | 0 <= i < |s[1..]| ensures s[1..][i] != c {
          assert s[1..][i] == s[i + 1];
        }
      }
      SplitWithoutSeparator(s[1..], c);
      assert [s[0]] + s[1..] == s;
    }
  }

  /** The first separator of `a + [c] + b` closes the piece `a`. */
  lemma {:induction false} SplitAtFirstSeparator(a: string, c: char, b: string)
    requires c !in a
    ensures Split(a + [c] + b, c) == [a] + Split(b, c)
  {
    if |a| == 0 {
      assert a + [c] + b == [c] + b;
      assert ([c] + b)[1..] == b;
    } else {
      SplitAtFirstSeparator(a[1..], c, b);
      assert (a + [c] + b)[1..] == a[1..] + [c] + b;
      assert [a[0]] + a[1..] == a;
    }
  }

  /** Split undoes Join when no piece contains the separator. */
  lemma {:induction false} SplitJoin(parts: seq<string>, c: char)
    requires |parts| >= 1
    requires forall i :: 0 <= i < |parts| ==> c !in parts[i]
    ensures Split(Join([c], parts), c) == parts
  {
    if |parts| == 1 {
      SplitWithoutSeparator(parts[0], c);
    } else {
      SplitJoin(parts[1..], c);
      SplitAtFirstSeparator(parts[0], c, Join([c], parts[1..]));
      assert [parts[0]] + parts[1..] == parts;
    }
  }

  /** Join undoes Split. */
  lemma {:induction false} JoinSplit(s: string, c: char)
    ensures Join([c], Split(s, c)) == s
  {
    if |s| > 0 {
      JoinSplit(s[1..], c);
      var rest := Split(s[1..], c);
      if s[0] == c {
        assert Join([c], [""] + rest) == "" + [c] + Join([c], rest);
      } else {
        var head := [[s[0]] + rest[0]] + rest[1..];
        if |rest| == 1 {
          assert Join([c], head) == [s[0]] + rest[0];
        } else {
          assert Join([c], rest) == rest[0] + [c] + Join([c], rest[1..]);
          assert head[1..] == rest[1..];
          assert Join([c], head) == [s[0]] + rest[0] + [c] + Join([c], rest[1..]);
        }
        assert s == [s[0]] + s[1..];
      }
    }
  }

  /** The first `c` of `a + [c] + b` is the one after `a`. */
  lemma {:induction false} FindFirstAt(a: string, c: char, b: string)
    requires c !in a
    ensures FindFirst(a + [c] + b, c) == Some(|a|)
  {
    if |a| > 0 {
      assert c !in a[1..] by {
        forall i | 0 <= i < |a[1..]| ensures a[1..][i] != c {
          assert a[1..][i] == a[i + 1];
        }
      }
      FindFirstAt(a[1..], c, b);
      assert (a + [c] + b)[1..] == a[1..] + [c] + b;
    }
  }

  /** Splitting on the first separator finds the piece before it. */
  lemma SplitFirstAt(a: string, c: char, b: string)
    requires c !in a
    ensures SplitFirst(a + [c] + b, c) == Some((a, b))
  {
    var s := a + [c] + b;
    FindFirstAt(a, c, b);
    assert s[..|a|] == a && s[|a| + 1..] == b;
  }
}
